=== FILE: README.md ===
# numq text-generation, modelled in Dafny

This project models the core of the numq text-generation library. That library gives JVM
code two chat engines on top of llama.cpp. It has two parts.

- **Text generation** (package `textgeneration`):
  - a process-wide load gate (`Unloaded`, `CPU`, `CUDA`) that the two loaders and
    `close` move between;
  - a chat session that keeps role-tagged messages and sends the whole conversation on
    every `generate`;
  - a Kotlin wrapper that owns one native handle and frees it through a `Cleaner`;
  - a JNI library with a handle registry, one global model and a generation loop bounded
    by the context size.
- **Text-to-text** (package `ttt`):
  - an `isLoaded` flag;
  - a session over `(role, content)` pairs;
  - a wrapper with three forwarded calls;
  - a JNI library whose generation loop stops after at most 32 pieces.

The model is functional. Each operation is a pure function from the state before the call
(the load state or flag, the native registry map, the session's message list) to the state
after it and the call's `Result`. A native exception raised with `ThrowNew` is an `Err`,
and so is the Kotlin failure it becomes.

llama.cpp is not modelled. It is the `LlamaCpp.Engine` value, a record of uninterpreted
functions: model loading, context creation, chat template, tokenisation, decode, sampling,
end-of-generation and token-to-piece. Every theorem holds for every engine.

Both generation loops are recursions over the tokens sampled so far:
- the text-generation loop's measure is the context budget;
- the text-to-text loop's measure is the 32-piece cap.

Java `int`, C `int32_t` and C `uint32_t` are subset types, with their casts written out
as wrap-around. Floats are carried as their binary32 bit patterns and never computed with.

## Model

| member | source | states |
|---|---|---|
| Text.Trim | library/src/main/kotlin/com/github/numq/textgeneration/llama/LlamaTextGeneration.kt:21-29 | The trimmed string is a slice of the input that has only whitespace (`Char.isWhitespace`) before and after it, and starts and ends at a non-whitespace character when non-empty. |
| Text.TrimByIsMaximalStripping | library/src/main/kotlin/com/github/numq/textgeneration/llama/LlamaTextGeneration.kt:21-29 | Every way of stripping droppable characters from both ends that stops at non-droppable ones gives exactly `trim`'s result, so `trim` never touches the inside of a string. |
| Text.TrimIdempotent | library/src/main/kotlin/com/github/numq/textgeneration/llama/LlamaTextGeneration.kt:29 | Trimming a trimmed string changes nothing, so every stored reply equals its own trim. |
| Text.ConcatEmpty | library/src/main/cpp/src/Java_com_github_numq_textgeneration_llama_NativeLlamaTextGeneration.cpp:256-258 | The concatenated response is empty exactly when every piece is empty, which is when "Unable to generate response" is raised. |
| Text.UpToNul | library/src/main/cpp/src/Java_com_github_numq_textgeneration_llama_NativeLlamaTextGeneration.cpp:260 | What `NewStringUTF(result.c_str())` delivers to Java is the response up to, not including, its first NUL: a prefix with no NUL, followed in the response by a NUL when it is shorter. |
| Text.UpToNulConcat | library/src/main/cpp/src/Java_com_github_numq_textgeneration_llama_NativeLlamaTextGeneration.cpp:260 | Cutting the concatenated pieces at the first NUL cuts inside the first piece holding one, and delivers every piece before it whole; so a response whose first piece starts with NUL reaches Java as "". |
| LlamaCpp.AsUint32 | library/src/main/cpp/src/Java_com_github_numq_textgeneration_llama_NativeLlamaTextGeneration.cpp:140-141 | Storing a Java `int` in a `uint32_t` parameter keeps its value modulo 2^32. |
| LlamaCpp.AsInt32AsUint32 | library/src/main/cpp/src/Java_com_github_numq_textgeneration_llama_NativeLlamaTextGeneration.cpp:48 | A Java `int` stored as `uint32_t` and cast back to `int` is unchanged. So an `n_ctx` the engine keeps as requested reads back as the caller's value. |
| LlamaCpp.DecodeCompletesCache | library/src/main/cpp/src/Java_com_github_numq_textgeneration_llama_NativeLlamaTextGeneration.cpp:44-74 | The cache before the pending decode, followed by the pending batch (the prompt first, then the last sampled token), is the old cache, the prompt and every sampled token, in order. |
| LlamaCpp.ExtendRun | library/src/main/cpp/src/Java_com_github_numq_textgeneration_llama_NativeLlamaTextGeneration.cpp:58-73 | One more iteration (a sampled non-final token with a piece) followed by a well-drawn run extends the sampled tokens, and the run is well drawn from the earlier position. |
| NativeLoader.LoadFrom | library/src/main/kotlin/com/github/numq/textgeneration/TextGeneration.kt:48-53 | Every binary from position `i` on is loaded in turn, each earlier one having loaded. The attempted binaries are a prefix of the list that runs past `i`. The run completes exactly when every binary loads. Otherwise it ends at the first binary that does not load, and every binary before it loaded. |
| NativeLoader.LoadInOrder | library/src/main/kotlin/com/github/numq/textgeneration/TextGeneration.kt:45-56 | The binaries attempted are a prefix of the list. The sequence completes exactly when every binary loads. On failure the last attempted binary is the one that failed, and all before it loaded. |
| TextGenerationLoad.LoadAs | library/src/main/kotlin/com/github/numq/textgeneration/TextGeneration.kt:45-56 | When not `Unloaded`: fails with "already loaded" naming the current state, attempts nothing and changes nothing. From `Unloaded`: succeeds exactly when every binary loads, and then reaches the target state. On failure the state stays `Unloaded`, and the error is the `UnsatisfiedLink` of the last binary attempted, which did not load, after every earlier one loaded. |
| TextGenerationLoad.LoadCPU | library/src/main/kotlin/com/github/numq/textgeneration/TextGeneration.kt:38-56 | When not `Unloaded`: fails with "Native binaries have already been loaded as <state>", attempts nothing and changes nothing. Otherwise: succeeds exactly when base, cpu, rpc, ggml, llama and textGeneration all load, in that order, and ends in `CPU`. A failure keeps the state. |
| TextGenerationLoad.LoadCUDA | library/src/main/kotlin/com/github/numq/textgeneration/TextGeneration.kt:72-92 | The same as `loadCPU`, with the cuda binary attempted third and `CUDA` as the final state. |
| TextGenerationLoad.FailedLoadStaysUnloaded | library/src/main/kotlin/com/github/numq/textgeneration/TextGeneration.kt:45-56 | For any list and any position: if every binary before it loads and the one there does not, the loader attempts exactly the binaries up to and including it, fails with `UnsatisfiedLink` naming it, and stays `Unloaded`. |
| TextGenerationLoad.SecondLoadFails | library/src/main/kotlin/com/github/numq/textgeneration/TextGeneration.kt:46-55 | After a successful load, both loaders fail with the already-loaded message naming the loaded state, and change nothing. |
| TextGeneration.Create | library/src/main/kotlin/com/github/numq/textgeneration/TextGeneration.kt:106-122 | While `Unloaded`: fails with "Native binaries were not loaded" and leaves the native state untouched. Otherwise: constructs the native instance. `create` succeeds exactly when that construction does, and a construction failure is returned as is. On success it returns a fresh, valid session whose history is `[System(trim(systemPrompt))]`, over a registered handle with an empty cache. |
| TextGeneration.CreateWithDefaults | library/src/main/kotlin/com/github/numq/textgeneration/TextGeneration.kt:106-122 | `create(modelPath)` with the parameter defaults: while `Unloaded` it fails with "Native binaries were not loaded". Otherwise it succeeds exactly when the native instance constructs with a context of 2048 and a batch of 4096, passes a construction failure through, and starts the history with an empty system message. |
| TextGeneration.DefaultsReachNative | library/src/main/kotlin/com/github/numq/textgeneration/TextGeneration.kt:11-12 | With the defaults, the system message is empty and llama.cpp was asked for a context of 2048 cells and a batch of 4096. |
| TextGeneration.CloseDisablesCreate | library/src/main/kotlin/com/github/numq/textgeneration/TextGeneration.kt:147-149 | Closing any session resets the load state, so the next `create` fails with "Native binaries were not loaded". |
| LlamaMessage.Message.role | library/src/main/kotlin/com/github/numq/textgeneration/llama/LlamaMessage.kt:4-8 | `System` carries role SYSTEM, `Input` USER and `Output` ASSISTANT, and each role belongs to exactly one variant. |
| LlamaMessage.MessageEquality | library/src/main/kotlin/com/github/numq/textgeneration/llama/LlamaMessage.kt:3-8 | Two messages are equal exactly when their roles and contents are. |
| LlamaMessage.WireRoles | library/src/main/kotlin/com/github/numq/textgeneration/llama/LlamaTextGeneration.kt:26 | The lowercased role names are "system", "user" and "assistant". |
| LlamaMessage.ToNativeAll | library/src/main/kotlin/com/github/numq/textgeneration/llama/LlamaTextGeneration.kt:25-27 | The native array has one pair per message, in order, each carrying the message's lowercase role name and its content. |
| LlamaMessage.ToNativeAllRoundTrip | library/src/main/kotlin/com/github/numq/textgeneration/llama/LlamaTextGeneration.kt:25-27 | The native array reads back as exactly the conversation, so no role or content is lost or reordered. |
| LlamaTextGeneration.New | library/src/main/kotlin/com/github/numq/textgeneration/llama/LlamaTextGeneration.kt:13-15 | A new session's history is exactly one system message holding the trimmed base prompt, and the session is valid. |
| LlamaTextGeneration.History | library/src/main/kotlin/com/github/numq/textgeneration/llama/LlamaTextGeneration.kt:17 | `history` always succeeds with exactly the session's message list; for a valid session that list begins with the system message and holds no other. |
| LlamaTextGeneration.Generate | library/src/main/kotlin/com/github/numq/textgeneration/llama/LlamaTextGeneration.kt:19-34 | The native instance receives exactly the old history plus `Input(trim(prompt))`, mapped to wire pairs, and that array reads back as that history. The process afterwards is the native call's. `generate` succeeds exactly when the native call does; the reply is `Output(trim(response))` of the call's own response and is appended after the user message; a failure is the call's failure and keeps the user message. An unknown handle fails with "Invalid handle" and changes nothing. Validity is kept. |
| LlamaTextGeneration.Record | library/src/main/kotlin/com/github/numq/textgeneration/llama/LlamaTextGeneration.kt:29-33 | The reply is stored trimmed and returned with the user message it answers. A failed reply is passed on unchanged and adds nothing. |
| LlamaTextGeneration.AppendKeepsValid | library/src/main/kotlin/com/github/numq/textgeneration/llama/LlamaTextGeneration.kt:23-31 | Appending non-system messages keeps the system message first and unique. |
| LlamaTextGeneration.GenerateGrowsHistory | library/src/main/kotlin/com/github/numq/textgeneration/llama/LlamaTextGeneration.kt:19-34 | `generate` keeps the earlier history as a prefix, and adds two messages on success and one on failure. |
| LlamaTextGeneration.Reset | library/src/main/kotlin/com/github/numq/textgeneration/llama/LlamaTextGeneration.kt:37-45 | `reset` always succeeds and leaves exactly `[systemMessage]`, for every session, keeping the instance and the system message. |
| LlamaTextGeneration.ResetRestoresNew | library/src/main/kotlin/com/github/numq/textgeneration/llama/LlamaTextGeneration.kt:37-45 | After `reset` the history is exactly `[systemMessage]` whatever came before, validity is kept, and a second `reset` changes nothing. |
| LlamaTextGeneration.ResetAfterNew | library/src/main/kotlin/com/github/numq/textgeneration/llama/LlamaTextGeneration.kt:13-45 | After `reset` a session is indistinguishable from the freshly constructed one over the same instance. |
| LlamaTextGeneration.Close | library/src/main/kotlin/com/github/numq/textgeneration/llama/LlamaTextGeneration.kt:47-51 | `close` never fails. It leaves the load state `Unloaded`, marks the instance cleaned, and removes its handle from the registry the first time. |
| LlamaTextGeneration.CloseThenGenerate | library/src/main/kotlin/com/github/numq/textgeneration/llama/LlamaTextGeneration.kt:47-51 | After `close`, `generate` fails with "Invalid handle" and leaves the native state as it was. The user message still stays appended. |
| NativeLlamaTextGeneration.Construct | library/src/main/kotlin/com/github/numq/textgeneration/llama/NativeLlamaTextGeneration.kt:5-12 | Construction succeeds exactly when `initNative` returns a handle other than -1, and that handle is registered. A native failure surfaces as a `RuntimeException` with that failure's own message; a plain -1 fails the `require` with "Unable to initialize native library". |
| NativeLlamaTextGeneration.Generate | library/src/main/kotlin/com/github/numq/textgeneration/llama/NativeLlamaTextGeneration.kt:42-57 | `generate` is `generateNative` on the construction handle with the messages and all five sampling arguments unchanged: the state afterwards is that call's, it succeeds exactly when that call does, its value is that call's response cut at the first NUL, and its failure is the native message. Other handles' contexts and the handle set are untouched. |
| NativeLlamaTextGeneration.GenerateWithDefaults | library/src/main/kotlin/com/github/numq/textgeneration/llama/NativeLlamaTextGeneration.kt:17-57 | The defaulted call is `generate` with temperature .98, top-p .37, repetition penalty 1.18, top-k 100 and seed 0; it keeps the handle set and its response holds no NUL. |
| NativeLlamaTextGeneration.DefaultsChooseGreedy | library/src/main/kotlin/com/github/numq/textgeneration/llama/NativeLlamaTextGeneration.kt:17-20 | With the defaults the chain is top-k 100, top-p .37, and the greedy sampler, since seed 0 is not positive. No seeded sampler appears. |
| NativeLlamaTextGeneration.DefaultReplyIsGreedyRun | library/src/main/kotlin/com/github/numq/textgeneration/llama/NativeLlamaTextGeneration.kt:42-57 | A reply of the defaulted `generate` is, up to its first NUL, the concatenated pieces of tokens drawn one by one by the greedy default chain after the tokenised, formatted conversation. |
| NativeLlamaTextGeneration.Close | library/src/main/kotlin/com/github/numq/textgeneration/llama/NativeLlamaTextGeneration.kt:59 | `close` runs `freeNative` exactly when it has not run before. On that run the handle leaves the registry, or "Unable to free native pointer" is raised with nothing changed. |
| NativeLlamaTextGeneration.CloseFreesAtMostOnce | library/src/main/kotlin/com/github/numq/textgeneration/llama/NativeLlamaTextGeneration.kt:14 | After one `close` the handle is gone, and a second `close` does nothing. |
| NativeLlamaTextGeneration.ConstructThenClose | library/src/main/kotlin/com/github/numq/textgeneration/llama/NativeLlamaTextGeneration.kt:5-14 | Constructing an instance at an address not in use and then closing it frees it, without error, and restores the registry exactly. |
| TextGenerationNative.InitNative | library/src/main/cpp/src/Java_com_github_numq_textgeneration_llama_NativeLlamaTextGeneration.cpp:110-159 | An empty path fails and changes nothing; so does a model that does not load. A loaded model replaces the global one even when context creation then fails. Success adds one entry with an empty cache under the new handle, and keeps every other entry. |
| TextGenerationNative.SamplerChain | library/src/main/cpp/src/Java_com_github_numq_textgeneration_llama_NativeLlamaTextGeneration.cpp:225-253 | A seeded distribution sampler is in the chain exactly when seed > 0, and the greedy sampler exactly when it is not. |
| TextGenerationNative.GenerateLoop | library/src/main/cpp/src/Java_com_github_numq_textgeneration_llama_NativeLlamaTextGeneration.cpp:20-77 | A decode that would overrun `n_ctx` fails with "Context size exceeded" before decoding, so no decode takes the cache past `n_ctx`. Each token is the sampler's pick after its predecessors. The loop stops at the first end-of-generation token, which is not appended, and then succeeds with the in-order concatenation of the pieces. Within the budget, a failed decode of the pending batch stops the loop at once with "Failed to decode" and the cache as it was. Each error names its cause at the point the loop stopped: the budget overrun, the failed decode of the pending batch, or the drawn token with no piece. |
| TextGenerationNative.LoopSucceeds | library/src/main/cpp/src/Java_com_github_numq_textgeneration_llama_NativeLlamaTextGeneration.cpp:44-74 | When every decode succeeds, every token has a piece, and the engine ends generation once `k` tokens are drawn, a loop with room for the prompt and `k` tokens succeeds after at most `k` tokens. |
| TextGenerationNative.GenerateNative | library/src/main/cpp/src/Java_com_github_numq_textgeneration_llama_NativeLlamaTextGeneration.cpp:161-271 | An unknown handle fails with "Invalid handle" and changes nothing; a missing vocabulary fails with "Failed to get model vocab", an unallocated chain with "Failed to initialize sampler" and an untokenisable conversation with "Failed to tokenize the prompt", each changing nothing. Otherwise the handle's cache is the loop's, and the result is the loop's, except that an empty response is "Unable to generate response". Other contexts are untouched, and the cache stays within `n_ctx`. The sampler chain is left allocated exactly on success. |
| TextGenerationNative.GenerateNativeSucceeds | library/src/main/cpp/src/Java_com_github_numq_textgeneration_llama_NativeLlamaTextGeneration.cpp:161-271 | `generateNative` succeeds when the handle is registered, the model has a vocabulary, the chain is allocated, the conversation tokenises, every decode succeeds, every token has a piece, the first draw neither ends generation nor has an empty piece, and generation ends within the context budget. |
| TextGenerationNative.GenerateNativeResponse | library/src/main/cpp/src/Java_com_github_numq_textgeneration_llama_NativeLlamaTextGeneration.cpp:161-271 | A successful response is the concatenated pieces of tokens sampled after the formatted, tokenised conversation. None of them ends generation and the next draw does. Every one of them is in the cache, within `n_ctx`. |
| TextGenerationNative.FreeNative | library/src/main/cpp/src/Java_com_github_numq_textgeneration_llama_NativeLlamaTextGeneration.cpp:273-285 | `freeNative` removes exactly the given handle. An absent handle raises "Unable to free native pointer" and changes nothing. |
| TextGenerationNative.InitThenFree | library/src/main/cpp/src/Java_com_github_numq_textgeneration_llama_NativeLlamaTextGeneration.cpp:148-154 | A successful init at a fresh address grows the registry by one, and freeing that handle restores the registry exactly. |
| TextGenerationNative.FreedHandleIsInvalid | library/src/main/cpp/src/Java_com_github_numq_textgeneration_llama_NativeLlamaTextGeneration.cpp:172-175 | After `freeNative`, generating on the handle fails with "Invalid handle" and a second free fails, both changing nothing. |
| TextGenerationNative.EntryPointsKeepConsistent | library/src/main/cpp/src/Java_com_github_numq_textgeneration_llama_NativeLlamaTextGeneration.cpp:131-154 | Every entry point keeps the invariant that a registered context implies a loaded global model. |
| TextToTextNative.InitNative | library/src/main/cpp/src/Java_com_github_numq_ttt_llama_NativeLlamaTextToText.cpp:51-99 | The text-to-text `initNative` has the same contract as the text-generation one, and leaves the leaked-sampler count alone. |
| TextToTextNative.CountTokens | library/src/main/cpp/src/Java_com_github_numq_ttt_llama_NativeLlamaTextToText.cpp:126-142 | The count is the length of the prompt's tokenisation (with special tokens only on an empty cache) when that is positive. Otherwise it is "Failed to calculate number of tokens". |
| TextToTextNative.CalculateTokensNative | library/src/main/cpp/src/Java_com_github_numq_ttt_llama_NativeLlamaTextToText.cpp:101-148 | The state does not change. An unknown handle gives "Invalid handle", a missing vocabulary "Failed to get model vocab". On a registered handle with a vocabulary the result is `CountTokens`: the length of the prompt's tokenisation (special tokens added only on an empty cache) when positive, "Failed to calculate number of tokens" otherwise. |
| TextToTextNative.ApplyTemplateNative | library/src/main/cpp/src/Java_com_github_numq_ttt_llama_NativeLlamaTextToText.cpp:151-208 | The state does not change. An unknown handle gives "Invalid handle", a missing vocabulary "Failed to get model vocab". On a registered handle with a vocabulary the result is the model's chat template applied to the messages. |
| TextToTextNative.SamplerChain | library/src/main/cpp/src/Java_com_github_numq_ttt_llama_NativeLlamaTextToText.cpp:276-304 | The chain has five stages, greedy first. It holds temperature, top-p and min-p with min-keep 0, and the penalties, all carrying the caller's values. |
| TextToTextNative.PromptBatch | library/src/main/cpp/src/Java_com_github_numq_ttt_llama_NativeLlamaTextToText.cpp:252-266 | The batch has exactly nPrompt tokens, starting with the second tokenisation. It fails with "Failed to tokenize prompt" exactly when that tokenisation fails or is longer than nPrompt. |
| TextToTextNative.PromptBatchOnFreshContext | library/src/main/cpp/src/Java_com_github_numq_ttt_llama_NativeLlamaTextToText.cpp:236-266 | On an empty cache the batch is exactly the prompt's tokens, with no padding. |
| TextToTextNative.CountMatchesFreshPrompt | library/src/main/cpp/src/Java_com_github_numq_ttt_llama_NativeLlamaTextToText.cpp:236-266 | On a context with an empty cache, the count `calculateTokensNative` reports is the length of the prompt batch `generateNative` decodes first, and that batch is the prompt's tokens. |
| TextToTextNative.GenerateLoop | library/src/main/cpp/src/Java_com_github_numq_ttt_llama_NativeLlamaTextToText.cpp:309-331 | At most 32 tokens are appended, each the sampler's pick after its predecessors. The first end-of-generation token stops the loop and is not appended. The result is the concatenation of the pieces. Below the cap the whole run is in the cache; at the cap the last token is not decoded. Once the next position reaches the cap the loop stops with the pieces so far; below it, a failed decode of the pending batch stops the loop at once with "Failed to decode batch" and the cache as it was. Each error names its cause: the failed decode of the pending batch, or the drawn token with no piece. |
| TextToTextNative.LoopSucceeds | library/src/main/cpp/src/Java_com_github_numq_ttt_llama_NativeLlamaTextToText.cpp:309-331 | When every decode succeeds and every token has a piece, the capped loop always succeeds. |
| TextToTextNative.GenerateNative | library/src/main/cpp/src/Java_com_github_numq_ttt_llama_NativeLlamaTextToText.cpp:210-346 | An unknown handle fails with "Invalid handle" and changes nothing; a missing vocabulary, a prompt with no tokens, a prompt batch that does not fit and an unallocated chain fail with their own messages, changing nothing. Otherwise the handle's cache and the result are the capped loop's on the prompt batch, and the cache grows on success. No sampler chain is leaked on either path. |
| TextToTextNative.GenerateNativeSucceeds | library/src/main/cpp/src/Java_com_github_numq_ttt_llama_NativeLlamaTextToText.cpp:210-346 | `generateNative` succeeds when the handle is registered, the model has a vocabulary, the prompt is counted and fits its batch, the chain is allocated, every decode succeeds and every token has a piece. |
| TextToTextNative.GenerateNativeResponse | library/src/main/cpp/src/Java_com_github_numq_ttt_llama_NativeLlamaTextToText.cpp:309-331 | A successful response is the concatenated pieces of at most 32 well-drawn tokens sampled after the prompt batch. |
| TextToTextNative.FreeNative | library/src/main/cpp/src/Java_com_github_numq_ttt_llama_NativeLlamaTextToText.cpp:348-359 | `freeNative` removes exactly the given handle. An absent handle raises "Unable to free native pointer" and changes nothing. |
| TextToTextNative.FreedHandleIsInvalid | library/src/main/cpp/src/Java_com_github_numq_ttt_llama_NativeLlamaTextToText.cpp:218-221 | After `freeNative`, counting, templating and generating on the handle fail with "Invalid handle", and freeing again fails, all changing nothing. |
| TextToTextNative.InitThenFree | library/src/main/cpp/src/Java_com_github_numq_ttt_llama_NativeLlamaTextToText.cpp:88-92 | A successful init at a fresh address grows the registry by one, and freeing that handle restores the registry exactly. |
| NativeLlamaTextToText.Construct | library/src/main/kotlin/com/github/numq/ttt/llama/NativeLlamaTextToText.kt:10-13 | Construction succeeds exactly when `initNative` returns a handle other than -1, and that handle is registered. A native failure surfaces with its own message; a plain -1 fails the `require` with "Unable to initialize native library". |
| NativeLlamaTextToText.LiftString | library/src/main/cpp/src/Java_com_github_numq_ttt_llama_NativeLlamaTextToText.cpp:335 | A string a native call returns reaches Kotlin cut at its first NUL, and a native failure reaches it as a `RuntimeException` with the native message; the state is the call's. |
| NativeLlamaTextToText.ApplyTemplate | library/src/main/kotlin/com/github/numq/ttt/llama/NativeLlamaTextToText.kt:52 | `applyTemplate` uses the construction handle and changes nothing. It succeeds exactly when the handle is registered and the model has a vocabulary, returning the model's template of the messages cut at its first NUL. |
| NativeLlamaTextToText.Generate | library/src/main/kotlin/com/github/numq/ttt/llama/NativeLlamaTextToText.kt:54-71 | `generate` is `generateNative` on the construction handle with the prompt and all six sampling arguments unchanged, its response cut at the first NUL. |
| NativeLlamaTextToText.DefaultChain | library/src/main/kotlin/com/github/numq/ttt/llama/NativeLlamaTextToText.kt:18-23 | The defaults give the chain greedy, temperature 1, top-p 1, min-p 0, and penalties (repeat 1, frequency 0, presence 0). |
| NativeLlamaTextToText.GenerateWithDefaults | library/src/main/kotlin/com/github/numq/ttt/llama/NativeLlamaTextToText.kt:18-71 | The defaulted call is `generate` with temperature 1, top-p 1, min-p 0, repeat penalty 1 and no frequency or presence penalty; it keeps the handle set and its response holds no NUL. |
| NativeLlamaTextToText.DefaultReplyIsDefaultChainRun | library/src/main/kotlin/com/github/numq/ttt/llama/NativeLlamaTextToText.kt:54-71 | A reply of the defaulted `generate` is, up to its first NUL, the pieces of at most 32 tokens drawn one by one by the chain greedy, temperature 1, top-p 1, min-p 0, penalties (1, 0, 0) after the prompt batch. |
| NativeLlamaTextToText.CalculateTokens | library/src/main/kotlin/com/github/numq/ttt/llama/NativeLlamaTextToText.kt:73 | `calculateTokens` uses the construction handle and changes nothing. It succeeds exactly when the handle is registered, the model has a vocabulary and the count is positive; the count is the length of the prompt's tokenisation on that handle's context. |
| NativeLlamaTextToText.Close | library/src/main/kotlin/com/github/numq/ttt/llama/NativeLlamaTextToText.kt:75 | `close` runs `freeNative` exactly when it has not run before. |
| NativeLlamaTextToText.CloseFreesAtMostOnce | library/src/main/kotlin/com/github/numq/ttt/llama/NativeLlamaTextToText.kt:15 | After one `close` a second does nothing, and every call on the instance fails with "Invalid handle". |
| NativeLlamaTextToText.ConstructThenClose | library/src/main/kotlin/com/github/numq/ttt/llama/NativeLlamaTextToText.kt:10-15 | Constructing an instance at an address not in use and then closing it frees it, without error, and restores the registry exactly. |
| LlamaTextToText.New | library/src/main/kotlin/com/github/numq/ttt/llama/LlamaTextToText.kt:9-11 | The initial messages are exactly `[("system", trim(basePrompt))]`. |
| LlamaTextToText.Generate | library/src/main/kotlin/com/github/numq/ttt/llama/LlamaTextToText.kt:13-25 | The engine receives the old messages plus `("user", trim(prompt))`. It succeeds exactly when the engine does. On success it appends and returns that message with `("assistant", trim(reply))`. On failure it keeps the user message and passes the engine's failure on. |
| LlamaTextToText.GenerateAppends | library/src/main/kotlin/com/github/numq/ttt/llama/LlamaTextToText.kt:13-25 | `generate` keeps the earlier messages as a prefix, and adds two messages on success and one on failure. |
| LlamaTextToText.Reset | library/src/main/kotlin/com/github/numq/ttt/llama/LlamaTextToText.kt:27 | `reset` leaves no messages at all, the system message included, and succeeds. |
| LlamaTextToText.ResetDropsSystemMessage | library/src/main/kotlin/com/github/numq/ttt/llama/LlamaTextToText.kt:27 | After `reset`, the engine is given the user message alone, and the history contains no system message. |
| LlamaTextToText.Close | library/src/main/kotlin/com/github/numq/ttt/llama/LlamaTextToText.kt:29 | `close` never fails. It closes the native instance, freeing the handle the first time. |
| TextToText.Load | library/src/main/kotlin/com/github/numq/ttt/TextToText.kt:15-33 | There is no already-loaded guard. Loading succeeds exactly when ggmlbase, ggmlrpc, ggmlcpu, ggmlcuda, ggml, llama and libttt all load, in that order, and then sets the flag. A failure leaves the flag as it was and is the `UnsatisfiedLink` of the last binary attempted, which did not load, after every earlier one loaded. |
| TextToText.LoadRepeats | library/src/main/kotlin/com/github/numq/ttt/TextToText.kt:15-33 | A second `load` after a success runs the same loads again, with the same outcome and the flag still set. |
| TextToText.Create | library/src/main/kotlin/com/github/numq/ttt/TextToText.kt:35-51 | Without a successful load: fails with "Native binaries were not loaded" and changes nothing. Otherwise: constructs the instance. `create` succeeds exactly when that construction does, and a construction failure is returned as is. On success the session's messages are `[("system", trim(basePrompt))]`. |
| TextToText.CreateWithDefaults | library/src/main/kotlin/com/github/numq/ttt/TextToText.kt:35-51 | `create(modelPath, basePrompt)` with the default sizes: without a successful load it fails with "Native binaries were not loaded". Otherwise it succeeds exactly when the native instance constructs with a context of 2048 and a batch of 4096, passes a construction failure through, and starts the messages with the trimmed base prompt. |
| TextToText.DefaultsReachNative | library/src/main/kotlin/com/github/numq/ttt/TextToText.kt:10-11 | With the default sizes, llama.cpp was asked for a context of 2048 cells and a batch of 4096. |
| TextToText.CloseKeepsLoaded | library/src/main/kotlin/com/github/numq/ttt/llama/LlamaTextToText.kt:29 | Closing a text-to-text session leaves the process loaded, so `create` is not refused afterwards. |

## Left out

- JNI marshalling other than the cut at the first NUL, `JNI_OnLoad`/`JNI_OnUnload` and `System.load` itself: these are plumbing. Whether a binary loads is a parameter.
- llama.cpp internals are uninterpreted functions of `LlamaCpp.Engine`:
  - tokenisation;
  - decode;
  - the samplers' arithmetic;
  - the chat template, including the resize-and-retry of the formatting buffer. `chatTemplate` is total. In the text-generation library a negative length from `llama_chat_apply_template` would reach the string construction and is not modelled (Java_com_github_numq_textgeneration_llama_NativeLlamaTextGeneration.cpp:209-222);
  - `llama_token_to_piece`, including its 256-byte buffer.

  Tokenisation's size-then-fill protocol in the text-generation loop is folded into one call returning the tokens or nothing.
- The KV cache is the sequence of tokens decoded into it, and its length stands for `llama_get_kv_cache_used_cells` (Java_com_github_numq_textgeneration_llama_NativeLlamaTextGeneration.cpp:49-50). The model assumes a successful `llama_decode` appends exactly the batch and a failed one leaves the cache unchanged. Partial decodes, cache eviction and position reuse inside llama.cpp are not modelled. In the text-to-text library the zero padding of a prompt batch is decoded like any token and counts as cache cells.
- Floating point: temperature, top-p, min-p and the penalties are passed through as bit patterns and never computed with.
- Concurrency is not modelled. Every operation is atomic. This covers:
  - the Kotlin `Mutex`;
  - the C++ `shared_mutex`, including `freeNative` erasing from the map under a shared lock;
  - coroutine cancellation.
- `Cleaner` running on garbage collection: only the explicit `close` path is modelled.
- Model loading: the text-generation `initNative` loads the model file twice and keeps the first result. The model treats both loads as one answer from `loadModel`; the leak of the second copy is not modelled.
- Stale contexts: assigning the global model smart pointer in either library's `initNative` frees the previous model, while contexts created from it stay registered. A later `generateNative` on such a handle runs on a freed model, which is undefined behaviour. The model does not record which model a context came from, so it lets such a context generate with the current model; `TextGenerationNative.Consistent` only promises that some model is loaded.
- A missing global model: `generateNative` with a registered handle but no model cannot happen, by `TextGenerationNative.EntryPointsKeepConsistent`. It is modelled as "Failed to get model vocab".
- Sampler chains are recorded only as a counter, `leakedSamplers`: the text-generation chain left allocated on success increments it, and the text-to-text library, which frees its chain on every path, never does.
- NativeLlamaTextGeneration.Generate: the response crosses JNI as modified UTF-8. The model carries characters one to one and models only the cut at the first NUL, so a response whose bytes are not valid (modified) UTF-8 is not modelled, and `trim` runs on the characters as given. Because of the cut, a non-empty native response can reach Kotlin as "" (`Text.UpToNulConcat`); the model promises only that the Kotlin string holds no NUL, not that it is non-empty.
- The engine call in `LlamaTextToText.generate` does not type-check against `NativeLlamaTextToText.generate`: it passes `messages =` to a function taking `prompt`. It is an abstract `Complete` function, and the native state it would change is not tracked by `LlamaTextToText.Generate`.
- `TextGeneration.create` passes `systemPrompt =` to a constructor whose parameter is `basePrompt`. The model passes the system prompt as the base prompt.
- `LlamaRole`, `NativeLlamaMessage` and `LlamaExchange` of the text-generation package, and the text-to-text `LlamaMessage`, are represented by `LlamaMessage.Role`, `LlamaCpp.ChatMessage`, `LlamaTextGeneration.Exchange` and `LlamaCpp.ChatMessage` respectively; their own code is not modelled.
- Token counts are unbounded naturals. The `int32` range of `calculateTokensNative`'s result and of `n_tokens` is not modelled.
- Handles are whatever address `initContext` reports. `TextGenerationNative.InitThenFree` assumes the address is not already in use, as distinct live allocations guarantee.

=== FILE: llama_cpp.dfy ===
/** The llama.cpp capability both native libraries call into, as uninterpreted functions.
    Nothing here is implemented: an `Engine` value fixes how the inference engine
    answers each question, and every theorem of the model holds for all of them. */
module LlamaCpp {
  import opened Results

  /** `llama_token` (an `int32_t` vocabulary index). */
  type Token = int

  /** Java `int` / C `int32_t`. */
  type Int32 = x: int | -0x8000_0000 <= x < 0x8000_0000

  /** C `uint32_t`. */
  type Uint32 = x: int | 0 <= x < 0x1_0000_0000

  /** `static_cast<uint32_t>` of a Java `int`: two's-complement wrap-around. */
  function AsUint32(x: Int32): (r: Uint32)
    ensures (r - x) % 0x1_0000_0000 == 0
  {
    if x < 0 then x + 0x1_0000_0000 else x
  }

  /** `static_cast<int>` of a `uint32_t`: values above `INT_MAX` become negative. */
  function AsInt32(x: Uint32): (r: Int32)
    ensures (r - x) % 0x1_0000_0000 == 0
  {
    if x < 0x8000_0000 then x else x - 0x1_0000_0000
  }

  /** Converting a Java `int` to `uint32_t` and back loses nothing. */
  lemma AsInt32AsUint32(x: Int32)
    ensures AsInt32(AsUint32(x)) == x
  {
  }

  /** A Java/C `float`, carried opaquely as its binary32 bit pattern. */
  datatype F32 = F32(bits: Uint32)

  /** `llama_chat_message`: one (role, content) pair handed to the chat template. */
  datatype ChatMessage = ChatMessage(role: string, content: string)

  /** One stage of a `llama_sampler_chain`, with the arguments it was initialised with. */
  datatype SamplerStage =
    | TopK(k: Int32)
    | TopP(p: F32, minKeep: nat)
    | MinP(p: F32, minKeep: nat)
    | Temp(t: F32)
    | Dist(seed: Uint32)
    | Greedy
    | Penalties(lastN: Int32, repeat: F32, freq: F32, present: F32)

  /** A context created by `llama_init_from_model`: its address and its `llama_n_ctx`. */
  datatype ContextAlloc = ContextAlloc(address: int, nCtx: Uint32)

  /** The answers of the inference engine, keyed by the model file the process loaded.
      - `loadModel(path)`: `llama_model_load_from_file` succeeds;
      - `initContext(path, n_ctx, n_batch)`: `llama_init_from_model`, or `None` on failure;
      - `hasVocab(path)`: `llama_model_get_vocab` is non-null;
      - `samplerChainInit`: `llama_sampler_chain_init` is non-null;
      - `chatTemplate(path, messages)`: the formatted prompt of `llama_chat_apply_template`;
      - `tokenize(path, text, addSpecial)`: `llama_tokenize`, or `None` when it fails;
      - `decode(path, n_batch, cache, batch)`: `llama_decode` returns 0 for that batch on a
        context whose cache holds `cache`;
      - `sample(path, chain, cache, sampled)`: `llama_sampler_sample` with a fresh chain that
        has already accepted `sampled`, on a context whose cache holds `cache`;
      - `isEog(path, token)`: `llama_vocab_is_eog`;
      - `tokenToPiece(path, token)`: `llama_token_to_piece` into a 256-byte buffer, or
        `None` when it returns a negative length. */
  datatype Engine = Engine(
    loadModel: string -> bool,
    initContext: (string, Uint32, Uint32) -> Option<ContextAlloc>,
    hasVocab: string -> bool,
    samplerChainInit: bool,
    chatTemplate: (string, seq<ChatMessage>) -> string,
    tokenize: (string, string, bool) -> Option<seq<Token>>,
    decode: (string, Uint32, seq<Token>, seq<Token>) -> bool,
    sample: (string, seq<SamplerStage>, seq<Token>, seq<Token>) -> Token,
    isEog: (string, Token) -> bool,
    tokenToPiece: (string, Token) -> Option<string>)

  /** `tokens` from position `from` on were drawn one by one by a generation loop: each is
      what the sampler picks after `base` and the tokens before it were decoded and
      accepted, none of them ends generation, and `pieces[i]` is the text of `tokens[i]`. */
  ghost predicate SampledRun(llama: Engine, model: string, chain: seq<SamplerStage>, base: seq<Token>,
                             tokens: seq<Token>, pieces: seq<string>, from: nat)
    requires |pieces| == |tokens|
  {
    forall i | from <= i < |tokens| ::
      && tokens[i] == llama.sample(model, chain, base + tokens[..i], tokens[..i])
      && !llama.isEog(model, tokens[i])
      && llama.tokenToPiece(model, tokens[i]) == Some(pieces[i])
  }

  /** The cache a loop that has sampled `tokens` held before its latest decode: the prompt
      is decoded first, then each sampled token once the next one is wanted. */
  function CacheBefore(cache0: seq<Token>, prompt: seq<Token>, tokens: seq<Token>): seq<Token> {
    if |tokens| == 0 then cache0 else cache0 + prompt + tokens[..|tokens| - 1]
  }

  /** The batch such a loop decodes next: the prompt, then the last sampled token. */
  function PendingBatch(prompt: seq<Token>, tokens: seq<Token>): seq<Token> {
    if |tokens| == 0 then prompt else [tokens[|tokens| - 1]]
  }

  /** Decoding the pending batch leaves the prompt and every sampled token in the cache. */
  lemma DecodeCompletesCache(cache0: seq<Token>, prompt: seq<Token>, tokens: seq<Token>)
    ensures CacheBefore(cache0, prompt, tokens) + PendingBatch(prompt, tokens) == cache0 + prompt + tokens
  {
    if |tokens| > 0 {
      assert tokens == tokens[..|tokens| - 1] + [tokens[|tokens| - 1]];
    }
  }

  /** A run that is well drawn from position `n + 1` on, and whose token at `n` is the one
      the sampler picked after its predecessors, is well drawn from `n` on. */
  lemma SampledRunStep(llama: Engine, model: string, chain: seq<SamplerStage>, base: seq<Token>,
                       tokens: seq<Token>, pieces: seq<string>, n: nat)
    requires |pieces| == |tokens| && n < |tokens|
    requires tokens[n] == llama.sample(model, chain, base + tokens[..n], tokens[..n])
    requires !llama.isEog(model, tokens[n]) && llama.tokenToPiece(model, tokens[n]) == Some(pieces[n])
    requires SampledRun(llama, model, chain, base, tokens, pieces, n + 1)
    ensures SampledRun(llama, model, chain, base, tokens, pieces, n)
  {
  }

  /** One more round of a loop: a run drawn after `tokens` whose first new token is the
      sampler's pick after `tokens` extends `tokens`, and is well drawn from where `tokens`
      ends. */
  lemma ExtendRun(llama: Engine, model: string, chain: seq<SamplerStage>, base: seq<Token>, tokens: seq<Token>,
                  pieces: seq<string>, token: Token, piece: string, run: seq<Token>, runPieces: seq<string>)
    requires |pieces| == |tokens| && |runPieces| == |run|
    requires token == llama.sample(model, chain, base + tokens, tokens)
    requires !llama.isEog(model, token) && llama.tokenToPiece(model, token) == Some(piece)
    requires tokens + [token] <= run && pieces + [piece] <= runPieces
    requires SampledRun(llama, model, chain, base, run, runPieces, |tokens| + 1)
    ensures tokens <= run && pieces <= runPieces
    ensures SampledRun(llama, model, chain, base, run, runPieces, |tokens|)
  {
    assert run[..|tokens| + 1] == tokens + [token];
    assert run[..|tokens|] == tokens && run[|tokens|] == token;
    assert runPieces[..|tokens| + 1] == pieces + [piece];
    assert runPieces[..|tokens|] == pieces && runPieces[|tokens|] == piece;
    SampledRunStep(llama, model, chain, base, run, runPieces, |tokens|);
  }
}

=== FILE: llama_message.dfy ===
/** `LlamaMessage` and `LlamaRole`: the role-tagged messages of a text-generation
    conversation, and their conversion to the `(role, content)` pairs native code reads. */
module LlamaMessage {
  import opened Results
  import opened Text
  import opened LlamaCpp

  /** `LlamaRole`. */
  datatype Role = SYSTEM | USER | ASSISTANT

  /** The enum constant's `name`. */
  function RoleName(role: Role): string {
    match role
    case SYSTEM => "SYSTEM"
    case USER => "USER"
    case ASSISTANT => "ASSISTANT"
  }

  /** The sealed class's three variants; the private base constructor admits no others.
      Each stores its content verbatim. */
  datatype Message = System(content: string) | Input(content: string) | Output(content: string) {

    /** The role each variant passes to the base constructor. */
    function role(): (r: Role)
      ensures System? <==> r == SYSTEM
      ensures Input? <==> r == USER
      ensures Output? <==> r == ASSISTANT
    {
      match this
      case System(_) => SYSTEM
      case Input(_) => USER
      case Output(_) => ASSISTANT
    }
  }

  /** Being data classes of distinct roles, two messages are equal exactly when their roles
      and contents are. */
  lemma MessageEquality(a: Message, b: Message)
    ensures a == b <==> a.role() == b.role() && a.content == b.content
  {
  }

  /** The role string native code receives: `role.name.lowercase()`. */
  function WireRole(role: Role): string {
    LowerAscii(RoleName(role))
  }

  /** The three wire roles are the chat template's "system", "user" and "assistant". */
  lemma WireRoles()
    ensures WireRole(SYSTEM) == "system"
    ensures WireRole(USER) == "user"
    ensures WireRole(ASSISTANT) == "assistant"
  {
    assert LowerAscii("SYSTEM") == "system";
    assert LowerAscii("USER") == "user";
    assert LowerAscii("ASSISTANT") == "assistant";
  }

  /** `NativeLlamaMessage(role = message.role.name.lowercase(), content = message.content)`. */
  function ToNative(m: Message): ChatMessage {
    ChatMessage(WireRole(m.role()), m.content)
  }

  /** The conversation as the array handed to native code, in order. */
  function ToNativeAll(ms: seq<Message>): (r: seq<ChatMessage>)
    ensures |r| == |ms| && forall i :: 0 <= i < |ms| ==> r[i] == ToNative(ms[i])
  {
    if |ms| == 0 then [] else [ToNative(ms[0])] + ToNativeAll(ms[1..])
  }

  /** Reading a native pair back as a message; `None` for a role no variant carries. */
  function FromNative(c: ChatMessage): Option<Message> {
    if c.role == "system" then Some(System(c.content))
    else if c.role == "user" then Some(Input(c.content))
    else if c.role == "assistant" then Some(Output(c.content))
    else None
  }

  /** Reading a whole native array back. */
  function FromNativeAll(cs: seq<ChatMessage>): Option<seq<Message>> {
    if |cs| == 0 then Some([])
    else match (FromNative(cs[0]), FromNativeAll(cs[1..]))
      case (Some(m), Some(ms)) => Some([m] + ms)
      case _ => None
  }

  /** Nothing is lost on the way to native code: each message's role and content can be
      read back from its pair. */
  lemma ToNativeRoundTrip(m: Message)
    ensures FromNative(ToNative(m)) == Some(m)
  {
    WireRoles();
  }

  /** The whole array native code receives reads back as the conversation, in order. */
  lemma {:induction false} ToNativeAllRoundTrip(ms: seq<Message>)
    ensures FromNativeAll(ToNativeAll(ms)) == Some(ms)
  {
    if |ms| > 0 {
      ToNativeRoundTrip(ms[0]);
      ToNativeAllRoundTrip(ms[1..]);
      assert ToNativeAll(ms)[1..] == ToNativeAll(ms[1..]);
      assert [ms[0]] + ms[1..] == ms;
    }
  }
}

=== FILE: llama_text_generation.dfy ===
/** `LlamaTextGeneration`: a chat session over one native text-generation instance. The
    session keeps the whole conversation and sends all of it on every `generate`. */
module LlamaTextGeneration {
  import opened Results
  import opened Failures
  import opened Text
  import opened LlamaCpp
  import opened LlamaMessage
  import opened TextGenerationLoad
  import Native = TextGenerationNative
  import NativeLlama = NativeLlamaTextGeneration

  /** `LlamaExchange`: one user message and the reply it produced. */
  datatype Exchange = Exchange(input: Message, output: Message)

  /** A session: the native instance, the `systemMessage` fixed at construction, and the
      `messages` list. */
  datatype Session = Session(native: NativeLlama.Wrapper, systemMessage: Message, messages: seq<Message>)

  /** What every session keeps: the list starts with its system message, and that is the
      only system message in it. */
  ghost predicate Valid(s: Session) {
    && s.systemMessage.System?
    && |s.messages| >= 1
    && s.messages[0] == s.systemMessage
    && forall i :: 1 <= i < |s.messages| ==> !s.messages[i].System?
  }

  /** The constructor. */
  function New(native: NativeLlama.Wrapper, basePrompt: string): (s: Session)
    ensures Valid(s)
    ensures s.native == native
    ensures |s.messages| == 1 && s.messages[0].System? && s.messages[0].content == Trim(basePrompt)
  {
    var system := System(Trim(basePrompt));
    Session(native, system, [system])
  }

  /** `history`: the list as it stands; a session that was only ever built and driven
      through this module's operations shows its system message first. */
  function History(s: Session): (r: Result<seq<Message>, Failure>)
    ensures r == Ok(s.messages)
    ensures Valid(s) ==> r.value[0] == s.systemMessage && forall i :: 1 <= i < |r.value| ==> !r.value[i].System?
  {
    Ok(s.messages)
  }

  /** What `generate` did: the session and process afterwards, the array the native
      instance received, and the result. */
  datatype GenerateRun = GenerateRun(session: Session, process: Process, request: seq<ChatMessage>, result: Result<Exchange, Failure>)

  /** The session-side half of `generate`: the user message is already appended; on
      success the trimmed reply follows it. */
  function Record(s: Session, user: Message, reply: Result<string, Failure>): (r: (Session, Result<Exchange, Failure>))
    requires user.Input?
    ensures r.0.native == s.native && r.0.systemMessage == s.systemMessage
    ensures r.1.Ok? <==> reply.Ok?
    ensures reply.Ok? ==>
      && r.1.value == Exchange(user, Output(Trim(reply.value)))
      && Trim(r.1.value.output.content) == r.1.value.output.content
      && r.0.messages == s.messages + [user, r.1.value.output]
    ensures reply.Err? ==> r.0.messages == s.messages + [user] && r.1 == Err(reply.error)
    ensures Valid(s) ==> Valid(r.0)
  {
    match reply
    case Err(f) =>
      AppendKeepsValid(s, [user]);
      (s.(messages := s.messages + [user]), Err(f))
    case Ok(response) =>
      TrimIdempotent(response);
      var assistant := Output(Trim(response));
      AppendKeepsValid(s, [user, assistant]);
      (s.(messages := s.messages + [user, assistant]), Ok(Exchange(user, assistant)))
  }

  /** `generate`: append the trimmed prompt as user input, send the whole list, append the
      trimmed reply. A failure after the first append keeps the user message. */
  function Generate(s: Session, p: Process, llama: Engine, prompt: string): (r: GenerateRun)
    ensures r.session.native == s.native && r.session.systemMessage == s.systemMessage
    ensures r.process.loadState == p.loadState
    ensures r.request == ToNativeAll(s.messages + [Input(Trim(prompt))])
    ensures FromNativeAll(r.request) == Some(s.messages + [Input(Trim(prompt))])
    ensures var call := NativeLlama.GenerateWithDefaults(s.native, p.native, llama, r.request);
      && r.process.native == call.state
      && (r.result.Ok? <==> call.result.Ok?)
      && (r.result.Ok? ==> r.result.value.output == Output(Trim(call.result.value)))
      && (r.result.Err? ==> r.result.error == call.result.error)
    ensures r.result.Ok? ==>
      && r.result.value.input == Input(Trim(prompt))
      && r.result.value.output.Output?
      && Trim(r.result.value.output.content) == r.result.value.output.content
      && r.session.messages == s.messages + [r.result.value.input, r.result.value.output]
    ensures r.result.Err? ==> r.session.messages == s.messages + [Input(Trim(prompt))]
    ensures s.native.handle !in p.native.pointers ==>
      r.result == Err(Runtime("Invalid handle")) && r.process == p
    ensures r.process.native.pointers.Keys == p.native.pointers.Keys
    ensures Valid(s) ==> Valid(r.session)
  {
    var user := Input(Trim(prompt));
    var request := ToNativeAll(s.messages + [user]);
    ToNativeAllRoundTrip(s.messages + [user]);
    var call := NativeLlama.GenerateWithDefaults(s.native, p.native, llama, request);
    var (session, result) := Record(s, user, call.result);
    GenerateRun(session, p.(native := call.state), request, result)
  }

  /** `reset`: the list back to the system message alone. The native context, with its
      cache, is not touched. */
  function Reset(s: Session): (r: (Session, Result<(), Failure>))
    ensures r.0.native == s.native && r.0.systemMessage == s.systemMessage
    ensures r.0.messages == [s.systemMessage]
    ensures r.1 == Ok(())
  {
    (s.(messages := [s.systemMessage]), Ok(()))
  }

  /** `close`: the inherited `close` sets the process back to `Unloaded`, then the native
      instance is closed; whatever that raises is dropped. */
  function Close(s: Session, p: Process): (r: (Session, Process))
    ensures r.1.loadState == Unloaded
    ensures r.0 == s.(native := s.native.(cleaned := true))
    ensures s.native.cleaned ==> r.1.native == p.native
    ensures !s.native.cleaned ==> r.1.native.pointers.Keys == p.native.pointers.Keys - {s.native.handle}
  {
    var closing := NativeLlama.Close(s.native, p.native);
    (s.(native := closing.wrapper), Process(Unloaded, closing.state))
  }

  /** Appending messages that are not system messages keeps a session valid. */
  lemma AppendKeepsValid(s: Session, extra: seq<Message>)
    requires forall i :: 0 <= i < |extra| ==> !extra[i].System?
    ensures Valid(s) ==> Valid(s.(messages := s.messages + extra))
  {
    var t := s.(messages := s.messages + extra);
    if Valid(s) {
      forall i | 1 <= i < |t.messages|
        ensures !t.messages[i].System?
      {
        if i >= |s.messages| {
          assert t.messages[i] == extra[i - |s.messages|];
        }
      }
    }
  }

  /** A successful `generate` lengthens the history by exactly two; a failed one by exactly
      the user message. */
  lemma GenerateGrowsHistory(s: Session, p: Process, llama: Engine, prompt: string)
    ensures var r := Generate(s, p, llama, prompt);
      |r.session.messages| == |s.messages| + (if r.result.Ok? then 2 else 1)
      && r.session.messages[..|s.messages|] == s.messages
  {
  }

  /** `reset` keeps a valid session valid, leaves only the system message whatever came
      before, and a second `reset` changes nothing. */
  lemma ResetRestoresNew(s: Session)
    requires Valid(s)
    ensures Valid(Reset(s).0)
    ensures Reset(s).0.messages == [s.systemMessage]
    ensures Reset(Reset(s).0) == Reset(s)
  {
  }

  /** A session whose every step was `generate` or `reset` after `New` shows the freshly
      built history after a `reset`. */
  lemma ResetAfterNew(native: NativeLlama.Wrapper, basePrompt: string, s: Session)
    requires s.native == native && s.systemMessage == New(native, basePrompt).systemMessage
    ensures Reset(s).0 == New(native, basePrompt)
  {
  }

  /** Closing a session frees its native handle, so a `generate` on it afterwards fails with
      the native "Invalid handle" and leaves the process as it was, apart from the user
      message that stays appended. */
  lemma CloseThenGenerate(s: Session, p: Process, llama: Engine, prompt: string)
    requires s.native.cleaned ==> s.native.handle !in p.native.pointers
    ensures var (closed, process) := Close(s, p);
      var r := Generate(closed, process, llama, prompt);
      && r.result == Err(Runtime("Invalid handle"))
      && r.process == process
      && r.session.messages == s.messages + [Input(Trim(prompt))]
  {
  }
}

=== FILE: llama_text_to_text.dfy ===
/** `LlamaTextToText`: the text-to-text chat session. Its messages are plain
    `(role, content)` pairs with the roles written out as strings. */
module LlamaTextToText {
  import opened Results
  import opened Failures
  import opened Text
  import opened LlamaCpp
  import Native = TextToTextNative
  import NativeLlama = NativeLlamaTextToText

  /** A session: the native instance, the system message fixed at construction, and the
      public `messages` list. */
  datatype Session = Session(native: NativeLlama.Wrapper, systemMessage: ChatMessage, messages: seq<ChatMessage>)

  /** The constructor. */
  function New(native: NativeLlama.Wrapper, basePrompt: string): (s: Session)
    ensures s.native == native && s.systemMessage.role == "system"
    ensures s.messages == [s.systemMessage] && s.systemMessage.content == Trim(basePrompt)
  {
    var system := ChatMessage("system", Trim(basePrompt));
    Session(native, system, [system])
  }

  /** The engine call `generate` makes: given every message, in order, a reply or the
      failure it raised. */
  type Complete = seq<ChatMessage> -> Result<string, Failure>

  /** `generate`: append the trimmed prompt as a user message, hand the whole list to the
      engine, append the trimmed reply as an assistant message. A failure after the first
      append keeps the user message. */
  function Generate(s: Session, complete: Complete, prompt: string): (r: (Session, Result<(ChatMessage, ChatMessage), Failure>))
    ensures r.0.native == s.native && r.0.systemMessage == s.systemMessage
    ensures var user := ChatMessage("user", Trim(prompt));
      var reply := complete(s.messages + [user]);
      && (r.1.Ok? <==> reply.Ok?)
      && (reply.Ok? ==>
            && r.1.value == (user, ChatMessage("assistant", Trim(reply.value)))
            && Trim(r.1.value.1.content) == r.1.value.1.content
            && r.0.messages == s.messages + [user, r.1.value.1])
      && (reply.Err? ==> r.0.messages == s.messages + [user] && r.1 == Err(reply.error))
  {
    var user := ChatMessage("user", Trim(prompt));
    var messages := s.messages + [user];
    match complete(messages)
    case Err(f) => (s.(messages := messages), Err(f))
    case Ok(response) =>
      TrimIdempotent(response);
      var assistant := ChatMessage("assistant", Trim(response));
      (s.(messages := messages + [assistant]), Ok((user, assistant)))
  }

  /** `reset` = `messages.clear()`: the system message goes too. */
  function Reset(s: Session): (r: (Session, Result<(), Failure>))
    ensures r.0.native == s.native && r.0.systemMessage == s.systemMessage
    ensures r.0.messages == [] && r.1 == Ok(())
  {
    (s.(messages := []), Ok(()))
  }

  /** After `reset` the engine is handed the user message alone: the system prompt is no
      longer sent, and the next history has no system message. */
  lemma ResetDropsSystemMessage(s: Session, complete: Complete, prompt: string)
    ensures var cleared := Reset(s).0;
      var next := Generate(cleared, complete, prompt);
      && next.0.messages[0] == ChatMessage("user", Trim(prompt))
      && (forall i :: 0 <= i < |next.0.messages| ==> next.0.messages[i].role != "system")
      && next.1.Ok? == complete([ChatMessage("user", Trim(prompt))]).Ok?
  {
    var cleared := Reset(s).0;
    var user := ChatMessage("user", Trim(prompt));
    assert cleared.messages + [user] == [user];
    var next := Generate(cleared, complete, prompt);
    assert "user"[0] != "system"[0] && "assistant"[0] != "system"[0];
    if next.1.Ok? {
      assert next.0.messages == [user, next.1.value.1];
    } else {
      assert next.0.messages == [user];
    }
  }

  /** `generate` only appends: a successful call adds exactly two messages, a failed one
      exactly one, and everything before them is kept. */
  lemma GenerateAppends(s: Session, complete: Complete, prompt: string)
    ensures var (next, result) := Generate(s, complete, prompt);
      && |next.messages| == |s.messages| + (if result.Ok? then 2 else 1)
      && next.messages[..|s.messages|] == s.messages
  {
    var (next, result) := Generate(s, complete, prompt);
    if result.Ok? {
      assert next.messages[..|s.messages|] == s.messages;
    } else {
      assert next.messages[..|s.messages|] == s.messages;
    }
  }

  /** `close`: the native instance's `close`, with whatever it raises dropped. The
      companion's `isLoaded` is not touched. */
  function Close(s: Session, ns: Native.NativeState): (r: (Session, Native.NativeState))
    ensures r.0 == s.(native := s.native.(cleaned := true))
    ensures s.native.cleaned ==> r.1 == ns
    ensures !s.native.cleaned ==> r.1.pointers.Keys == ns.pointers.Keys - {s.native.handle}
  {
    var closing := NativeLlama.Close(s.native, ns);
    (s.(native := closing.wrapper), closing.state)
  }
}

=== FILE: native_llama_text_generation.dfy ===
/** `NativeLlamaTextGeneration`: the Kotlin object that owns one native handle of the
    text-generation library, forwards `generate` with its defaults, and frees the handle
    through a `Cleaner`. */
module NativeLlamaTextGeneration {
  import opened Results
  import opened Failures
  import opened Text
  import opened LlamaCpp
  import Native = TextGenerationNative

  const DefaultTemperature := F32(0x3F7A_E148)        // .98f
  const DefaultTopP := F32(0x3EBD_70A4)               // .37f
  const DefaultRepetitionPenalty := F32(0x3F97_0A3D)  // 1.18f
  const DefaultTopK: Int32 := 100
  const DefaultSeed: Int32 := 0

  /** An instance: the handle fixed at construction, and whether its cleaning action
      (`freeNative(nativeHandle)`) has already run. */
  datatype Wrapper = Wrapper(handle: int, cleaned: bool)

  /** The native library's state after a Kotlin-side call, and the call's `Result`. */
  datatype Call<T> = Call(state: Native.NativeState, result: Result<T, Failure>)

  /** A native exception as the JVM raises it. */
  function Raised(e: Native.Error): Failure {
    Runtime(Native.Message(e))
  }

  /** The constructor: `initNative`, then `require(handle != -1L)`. A native failure leaves
      its own exception pending, and that exception is what construction fails with. */
  function Construct(ns: Native.NativeState, llama: Engine, modelPath: string, contextSize: Int32, batchSize: Int32): (r: Call<Wrapper>)
    ensures r.state == Native.InitNative(ns, llama, modelPath, contextSize, batchSize).state
    ensures modelPath == "" ==> r == Call(ns, Err(Runtime("Model path should not be empty")))
    ensures r.result.Ok? <==> Native.InitNative(ns, llama, modelPath, contextSize, batchSize).result.Ok?
                              && Native.InitNative(ns, llama, modelPath, contextSize, batchSize).result.value != -1
    ensures r.result.Ok? ==> r.result.value.handle != -1 && !r.result.value.cleaned && r.result.value.handle in r.state.pointers
    ensures var init := Native.InitNative(ns, llama, modelPath, contextSize, batchSize);
      init.result.Err? ==> r.result == Err(Runtime(Native.Message(init.result.error)))
    ensures var init := Native.InitNative(ns, llama, modelPath, contextSize, batchSize);
      init.result == Ok(-1) ==> r.result == Err(IllegalArgument("Unable to initialize native library"))
  {
    var init := Native.InitNative(ns, llama, modelPath, contextSize, batchSize);
    match init.result
    case Err(e) => Call(init.state, Err(Raised(e)))
    case Ok(handle) =>
      if handle == -1 then Call(init.state, Err(IllegalArgument("Unable to initialize native library")))
      else Call(init.state, Ok(Wrapper(handle, false)))
  }

  /** `generate`: `generateNative` on the construction handle with the messages and the
      sampling arguments unchanged. The response crosses JNI as `NewStringUTF` of the C
      string, so it arrives cut at its first NUL. */
  function Generate(w: Wrapper, ns: Native.NativeState, llama: Engine, messages: seq<ChatMessage>, temperature: F32,
                    topP: F32, repetitionPenalty: F32, topK: Int32, seed: Int32): (c: Call<string>)
    ensures var call := Native.GenerateNative(ns, llama, w.handle, messages, temperature, topP, repetitionPenalty, topK, seed);
      && c.state == call.state
      && (c.result.Ok? <==> call.result.Ok?)
      && (call.result.Ok? ==> c.result.value == UpToNul(call.result.value))
      && (call.result.Err? ==> c.result.error == Runtime(Native.Message(call.result.error)))
    ensures w.handle !in ns.pointers ==> c == Call(ns, Err(Runtime("Invalid handle")))
    ensures c.state.pointers.Keys == ns.pointers.Keys
    ensures forall h :: h in ns.pointers && h != w.handle ==> c.state.pointers[h] == ns.pointers[h]
    ensures c.result.Ok? ==> '\0' !in c.result.value
  {
    var call := Native.GenerateNative(ns, llama, w.handle, messages, temperature, topP, repetitionPenalty, topK, seed);
    match call.result
    case Ok(response) => Call(call.state, Ok(UpToNul(response)))
    case Err(e) => Call(call.state, Err(Raised(e)))
  }

  /** `generate` with every sampling argument left at its default: temperature .98,
      top-p .37, repetition penalty 1.18, top-k 100 and seed 0. */
  function GenerateWithDefaults(w: Wrapper, ns: Native.NativeState, llama: Engine, messages: seq<ChatMessage>): (c: Call<string>)
    ensures c == Generate(w, ns, llama, messages, F32(0x3F7A_E148), F32(0x3EBD_70A4), F32(0x3F97_0A3D), 100, 0)
    ensures w.handle !in ns.pointers ==> c == Call(ns, Err(Runtime("Invalid handle")))
    ensures c.state.pointers.Keys == ns.pointers.Keys
    ensures c.result.Ok? ==> '\0' !in c.result.value
  {
    Generate(w, ns, llama, messages, DefaultTemperature, DefaultTopP, DefaultRepetitionPenalty, DefaultTopK, DefaultSeed)
  }

  /** A reply `generate` returns with its defaults is the text, up to its first NUL, of a
      run the greedy chain drew token by token after the formatted conversation. */
  lemma DefaultReplyIsGreedyRun(w: Wrapper, ns: Native.NativeState, llama: Engine, messages: seq<ChatMessage>)
    requires GenerateWithDefaults(w, ns, llama, messages).result.Ok?
    ensures w.handle in ns.pointers && ns.model.Some?
    ensures var model := ns.model.value;
      var context := ns.pointers[w.handle];
      var chain := Native.SamplerChain(DefaultTemperature, DefaultTopP, DefaultRepetitionPenalty, DefaultTopK, DefaultSeed);
      var promptTokens := llama.tokenize(model, llama.chatTemplate(model, messages), |context.cache| == 0);
      && Greedy in chain
      && promptTokens.Some?
      && var run := Native.GenerateLoop(llama, model, chain, AsInt32(context.nCtx), context.nBatch, context.cache,
                                        promptTokens.value, [], [], "");
         && SampledRun(llama, model, chain, context.cache + promptTokens.value, run.tokens, run.pieces, 0)
         && GenerateWithDefaults(w, ns, llama, messages).result.value == UpToNul(Concat(run.pieces))
  {
    Native.GenerateNativeResponse(ns, llama, w.handle, messages, DefaultTemperature, DefaultTopP, DefaultRepetitionPenalty,
                                  DefaultTopK, DefaultSeed);
  }

  /** With the defaults, the chain is top-k 100, top-p .37, and, seed 0 not being positive,
      the greedy sampler rather than a seeded one. */
  lemma DefaultsChooseGreedy()
    ensures var chain := Native.SamplerChain(DefaultTemperature, DefaultTopP, DefaultRepetitionPenalty, DefaultTopK, DefaultSeed);
      && chain[0] == TopK(100) && chain[1] == TopP(DefaultTopP, 1) && chain[2] == Greedy
      && (forall seed :: Dist(seed) !in chain)
  {
  }

  /** What `close` did: the instance afterwards, the library's state, whether
      `freeNative` ran, and the exception it raised, if any. */
  datatype Closing = Closing(wrapper: Wrapper, state: Native.NativeState, freed: bool, result: Result<(), Failure>)

  /** `close` = `cleanable.clean()`: runs `freeNative` the first time only. */
  function Close(w: Wrapper, ns: Native.NativeState): (r: Closing)
    ensures r.wrapper == w.(cleaned := true)
    ensures r.freed <==> !w.cleaned
    ensures w.cleaned ==> r.state == ns && r.result.Ok?
    ensures !w.cleaned ==> r.state.pointers.Keys == ns.pointers.Keys - {w.handle}
    ensures r.result.Err? ==> r.result.error == Runtime("Unable to free native pointer") && r.state == ns
  {
    if w.cleaned then Closing(w, ns, false, Ok(()))
    else
      var call := Native.FreeNative(ns, w.handle);
      Closing(w.(cleaned := true), call.state,  true,
              match call.result case Ok(_) => Ok(()) case Err(e) => Err(Raised(e)))
  }

  /** However often `close` is called, `freeNative` runs at most once: a second `close`
      does nothing; and after it the handle is gone from the registry. */
  lemma CloseFreesAtMostOnce(w: Wrapper, ns: Native.NativeState)
    requires w.cleaned ==> w.handle !in ns.pointers
    ensures var first := Close(w, ns);
      && w.handle !in first.state.pointers
      && Close(first.wrapper, first.state) == Closing(first.wrapper, first.state, false, Ok(()))
  {
  }

  /** Constructing an instance at an address not in use and then closing it frees exactly
      that instance: the registry is as it was before construction. */
  lemma ConstructThenClose(ns: Native.NativeState, llama: Engine, modelPath: string, contextSize: Int32, batchSize: Int32)
    requires Construct(ns, llama, modelPath, contextSize, batchSize).result.Ok?
    requires Construct(ns, llama, modelPath, contextSize, batchSize).result.value.handle !in ns.pointers
    ensures var built := Construct(ns, llama, modelPath, contextSize, batchSize);
      var closing := Close(built.result.value, built.state);
      && closing.freed && closing.result.Ok?
      && closing.state.pointers == ns.pointers
  {
    Native.InitThenFree(ns, llama, modelPath, contextSize, batchSize);
  }
}

=== FILE: native_llama_text_to_text.dfy ===
/** `NativeLlamaTextToText`: the Kotlin object that owns one native handle of the
    text-to-text library, forwards its three calls on that handle, and frees it through a
    `Cleaner`. */
module NativeLlamaTextToText {
  import opened Results
  import opened Failures
  import opened Text
  import opened LlamaCpp
  import Native = TextToTextNative

  const DefaultTemperature := F32(0x3F80_0000)     // 1f
  const DefaultTopP := F32(0x3F80_0000)            // 1f
  const DefaultMinP := F32(0)                      // 0f
  const DefaultPenaltyRepeat := F32(0x3F80_0000)   // 1f
  const DefaultPenaltyFreq := F32(0)               // 0f
  const DefaultPenaltyPresent := F32(0)            // 0f

  /** An instance: the handle fixed at construction, and whether its cleaning action has
      already run. */
  datatype Wrapper = Wrapper(handle: int, cleaned: bool)

  /** The native library's state after a Kotlin-side call, and the call's `Result`. */
  datatype Call<T> = Call(state: Native.NativeState, result: Result<T, Failure>)

  /** A native exception as the JVM raises it. */
  function Raised(e: Native.Error): Failure {
    Runtime(Native.Message(e))
  }

  /** A native call's outcome seen from Kotlin. */
  function Lift<T>(c: Native.Call<T>): (r: Call<T>)
    ensures r.state == c.state
    ensures r.result.Ok? <==> c.result.Ok?
    ensures c.result.Ok? ==> r.result.value == c.result.value
    ensures c.result.Err? ==> r.result.error == Runtime(Native.Message(c.result.error))
  {
    match c.result
    case Ok(v) => Call(c.state, Ok(v))
    case Err(e) => Call(c.state, Err(Raised(e)))
  }

  /** A string a native call returns, as it reaches Kotlin through `NewStringUTF`: cut at
      its first NUL. */
  function LiftString(c: Native.Call<string>): (r: Call<string>)
    ensures r.state == c.state
    ensures r.result.Ok? <==> c.result.Ok?
    ensures c.result.Ok? ==> r.result.value == UpToNul(c.result.value)
    ensures c.result.Err? ==> r.result.error == Runtime(Native.Message(c.result.error))
  {
    match c.result
    case Ok(v) => Call(c.state, Ok(UpToNul(v)))
    case Err(e) => Call(c.state, Err(Raised(e)))
  }

  /** The constructor: `initNative`, then `require(handle != -1L)`; a native failure's own
      pending exception is what construction fails with. */
  function Construct(ns: Native.NativeState, llama: Engine, modelPath: string, contextSize: Int32, batchSize: Int32): (r: Call<Wrapper>)
    ensures r.state == Native.InitNative(ns, llama, modelPath, contextSize, batchSize).state
    ensures modelPath == "" ==> r == Call(ns, Err(Runtime("Model path should not be empty")))
    ensures r.result.Ok? <==> Native.InitNative(ns, llama, modelPath, contextSize, batchSize).result.Ok?
                              && Native.InitNative(ns, llama, modelPath, contextSize, batchSize).result.value != -1
    ensures r.result.Ok? ==> r.result.value.handle != -1 && !r.result.value.cleaned && r.result.value.handle in r.state.pointers
    ensures var init := Native.InitNative(ns, llama, modelPath, contextSize, batchSize);
      init.result.Err? ==> r.result == Err(Runtime(Native.Message(init.result.error)))
    ensures var init := Native.InitNative(ns, llama, modelPath, contextSize, batchSize);
      init.result == Ok(-1) ==> r.result == Err(IllegalArgument("Unable to initialize native library"))
  {
    var init := Native.InitNative(ns, llama, modelPath, contextSize, batchSize);
    match init.result
    case Err(e) => Call(init.state, Err(Raised(e)))
    case Ok(handle) =>
      if handle == -1 then Call(init.state, Err(IllegalArgument("Unable to initialize native library")))
      else Call(init.state, Ok(Wrapper(handle, false)))
  }

  /** `applyTemplate`: `applyTemplateNative` on the construction handle. */
  function ApplyTemplate(w: Wrapper, ns: Native.NativeState, llama: Engine, messages: seq<ChatMessage>): (c: Call<string>)
    ensures c.state == ns
    ensures w.handle !in ns.pointers ==> c.result == Err(Runtime("Invalid handle"))
    ensures c.result.Ok? <==> w.handle in ns.pointers && ns.model.Some? && llama.hasVocab(ns.model.value)
    ensures c.result.Ok? ==> ns.model.Some? && c.result.value == UpToNul(llama.chatTemplate(ns.model.value, messages))
  {
    LiftString(Native.ApplyTemplateNative(ns, llama, w.handle, messages))
  }

  /** `generate`: `generateNative` on the construction handle with the prompt and the six
      sampling arguments passed through; the response arrives cut at its first NUL. */
  function Generate(w: Wrapper, ns: Native.NativeState, llama: Engine, prompt: string, temperature: F32, topP: F32,
                    minP: F32, penaltyRepeat: F32, penaltyFreq: F32, penaltyPresent: F32): (c: Call<string>)
    ensures c == LiftString(Native.GenerateNative(ns, llama, w.handle, prompt, temperature, topP, minP, penaltyRepeat, penaltyFreq, penaltyPresent))
    ensures w.handle !in ns.pointers ==> c == Call(ns, Err(Runtime("Invalid handle")))
    ensures c.state.pointers.Keys == ns.pointers.Keys
  {
    LiftString(Native.GenerateNative(ns, llama, w.handle, prompt, temperature, topP, minP, penaltyRepeat, penaltyFreq, penaltyPresent))
  }

  /** `generate(prompt)`, every sampling argument at its default: temperature 1, top-p 1,
      min-p 0, repeat penalty 1, and no frequency or presence penalty. */
  function GenerateWithDefaults(w: Wrapper, ns: Native.NativeState, llama: Engine, prompt: string): (c: Call<string>)
    ensures c == Generate(w, ns, llama, prompt, F32(0x3F80_0000), F32(0x3F80_0000), F32(0), F32(0x3F80_0000), F32(0), F32(0))
    ensures w.handle !in ns.pointers ==> c == Call(ns, Err(Runtime("Invalid handle")))
    ensures c.state.pointers.Keys == ns.pointers.Keys
    ensures c.result.Ok? ==> '\0' !in c.result.value
  {
    Generate(w, ns, llama, prompt, DefaultTemperature, DefaultTopP, DefaultMinP, DefaultPenaltyRepeat, DefaultPenaltyFreq,
             DefaultPenaltyPresent)
  }

  /** With the defaults the chain is greedy, at temperature 1, top-p 1 and min-p 0, with a
      repeat penalty of 1 and no frequency or presence penalty. */
  lemma DefaultChain()
    ensures Native.SamplerChain(DefaultTemperature, DefaultTopP, DefaultMinP, DefaultPenaltyRepeat, DefaultPenaltyFreq,
                                DefaultPenaltyPresent)
         == [Greedy, Temp(F32(0x3F80_0000)), TopP(F32(0x3F80_0000), 0), MinP(F32(0), 0),
             Penalties(0, F32(0x3F80_0000), F32(0), F32(0))]
  {
  }

  /** A reply `generate` returns with its defaults is the text, up to its first NUL, of at
      most 32 tokens the default chain drew one by one after the prompt batch. */
  lemma DefaultReplyIsDefaultChainRun(w: Wrapper, ns: Native.NativeState, llama: Engine, prompt: string)
    requires GenerateWithDefaults(w, ns, llama, prompt).result.Ok?
    ensures w.handle in ns.pointers && ns.model.Some?
    ensures var model := ns.model.value;
      var context := ns.pointers[w.handle];
      var chain := [Greedy, Temp(F32(0x3F80_0000)), TopP(F32(0x3F80_0000), 0), MinP(F32(0), 0),
                    Penalties(0, F32(0x3F80_0000), F32(0), F32(0))];
      var batch := Native.PromptBatch(llama, model, prompt, Native.CountTokens(llama, model, context, prompt).value).value;
      var run := Native.GenerateLoop(llama, model, chain, context.nBatch, context.cache, batch, 0, [], [], "");
      && |run.tokens| <= Native.MaxPieces
      && SampledRun(llama, model, chain, context.cache + batch, run.tokens, run.pieces, 0)
      && GenerateWithDefaults(w, ns, llama, prompt).result.value == UpToNul(Concat(run.pieces))
  {
    DefaultChain();
    Native.GenerateNativeResponse(ns, llama, w.handle, prompt, DefaultTemperature, DefaultTopP, DefaultMinP,
                                  DefaultPenaltyRepeat, DefaultPenaltyFreq, DefaultPenaltyPresent);
  }

  /** `calculateTokens`: `calculateTokensNative` on the construction handle. */
  function CalculateTokens(w: Wrapper, ns: Native.NativeState, llama: Engine, prompt: string): (c: Call<nat>)
    ensures c.state == ns
    ensures w.handle !in ns.pointers ==> c.result == Err(Runtime("Invalid handle"))
    ensures c.result.Ok? ==>
      && w.handle in ns.pointers && ns.model.Some?
      && var tokens := llama.tokenize(ns.model.value, prompt, |ns.pointers[w.handle].cache| == 0);
         tokens.Some? && c.result.value == |tokens.value| > 0
    ensures c.result.Ok? <==>
      && w.handle in ns.pointers && ns.model.Some? && llama.hasVocab(ns.model.value)
      && Native.CountTokens(llama, ns.model.value, ns.pointers[w.handle], prompt).Ok?
  {
    Lift(Native.CalculateTokensNative(ns, llama, w.handle, prompt))
  }

  /** What `close` did: the instance afterwards, the library's state, whether `freeNative`
      ran, and the exception it raised, if any. */
  datatype Closing = Closing(wrapper: Wrapper, state: Native.NativeState, freed: bool, result: Result<(), Failure>)

  /** `close` = `cleanable.clean()`: runs `freeNative` the first time only. */
  function Close(w: Wrapper, ns: Native.NativeState): (r: Closing)
    ensures r.wrapper == w.(cleaned := true)
    ensures r.freed <==> !w.cleaned
    ensures w.cleaned ==> r.state == ns && r.result.Ok?
    ensures !w.cleaned ==> r.state.pointers.Keys == ns.pointers.Keys - {w.handle}
    ensures r.result.Err? ==> r.result.error == Runtime("Unable to free native pointer") && r.state == ns
  {
    if w.cleaned then Closing(w, ns, false, Ok(()))
    else
      var call := Lift(Native.FreeNative(ns, w.handle));
      Closing(w.(cleaned := true), call.state, true, call.result)
  }

  /** However often `close` is called, `freeNative` runs at most once, and afterwards every
      call on the instance fails with "Invalid handle". */
  lemma CloseFreesAtMostOnce(w: Wrapper, ns: Native.NativeState, llama: Engine, prompt: string, messages: seq<ChatMessage>)
    requires w.cleaned ==> w.handle !in ns.pointers
    ensures var first := Close(w, ns);
      && w.handle !in first.state.pointers
      && Close(first.wrapper, first.state) == Closing(first.wrapper, first.state, false, Ok(()))
      && GenerateWithDefaults(first.wrapper, first.state, llama, prompt) == Call(first.state, Err(Runtime("Invalid handle")))
      && CalculateTokens(first.wrapper, first.state, llama, prompt).result == Err(Runtime("Invalid handle"))
      && ApplyTemplate(first.wrapper, first.state, llama, messages).result == Err(Runtime("Invalid handle"))
  {
  }

  /** Constructing an instance at an address not in use and then closing it frees exactly
      that instance: the registry is as it was before construction. */
  lemma ConstructThenClose(ns: Native.NativeState, llama: Engine, modelPath: string, contextSize: Int32, batchSize: Int32)
    requires Construct(ns, llama, modelPath, contextSize, batchSize).result.Ok?
    requires Construct(ns, llama, modelPath, contextSize, batchSize).result.value.handle !in ns.pointers
    ensures var built := Construct(ns, llama, modelPath, contextSize, batchSize);
      var closing := Close(built.result.value, built.state);
      && closing.freed && closing.result.Ok?
      && closing.state.pointers == ns.pointers
  {
    Native.InitThenFree(ns, llama, modelPath, contextSize, batchSize);
  }
}

=== FILE: native_loader.dfy ===
/** `System.load` applied to a list of native binaries, one after another. */
module NativeLoader {
  import opened Results

  /** Which binaries `System.load` was asked for, in order, and the first one it could not
      load (the `UnsatisfiedLinkError` that ends the sequence), if any. */
  datatype LoadOutcome = LoadOutcome(attempted: seq<string>, failed: Option<string>)

  /** Every binary in `paths` loads. */
  ghost predicate AllLoad(paths: seq<string>, loads: string -> bool) {
    forall i :: 0 <= i < |paths| ==> loads(paths[i])
  }

  /** The loads from position `i` on, every binary before `i` having loaded. */
  function LoadFrom(paths: seq<string>, loads: string -> bool, i: nat): (r: LoadOutcome)
    requires i <= |paths|
    requires forall k :: 0 <= k < i ==> loads(paths[k])
    decreases |paths| - i
    ensures i <= |r.attempted| <= |paths| && r.attempted == paths[..|r.attempted|]
    ensures r.failed.None? <==> AllLoad(paths, loads)
    ensures r.failed.None? ==> r.attempted == paths
    ensures r.failed.Some? ==>
      && |r.attempted| > i
      && r.failed.value == paths[|r.attempted| - 1]
      && !loads(r.failed.value)
      && forall k :: 0 <= k < |r.attempted| - 1 ==> loads(paths[k])
  {
    if i == |paths| then
      assert paths[..|paths|] == paths;
      LoadOutcome(paths, None)
    else if !loads(paths[i]) then LoadOutcome(paths[..i + 1], Some(paths[i]))
    else LoadFrom(paths, loads, i + 1)
  }

  /** Load `paths` in order, stopping at the first binary that does not load;
      `loads(path)` says whether `System.load(path)` returns normally. */
  function LoadInOrder(paths: seq<string>, loads: string -> bool): (r: LoadOutcome)
    ensures r.attempted <= paths
    ensures r.failed.None? <==> AllLoad(paths, loads)
    ensures r.failed.None? ==> r.attempted == paths
    ensures r.failed.Some? ==>
      && |r.attempted| > 0
      && r.failed.value == r.attempted[|r.attempted| - 1]
      && !loads(r.failed.value)
      && AllLoad(r.attempted[..|r.attempted| - 1], loads)
  {
    LoadFrom(paths, loads, 0)
  }
}

=== FILE: results.dfy ===
/** Failure-carrying values shared by every layer of the model. */
module Results {

  /** An optional value: the native layer's nullable results. */
  datatype Option<+T> = None | Some(value: T)

  /** A success value or an error value: Kotlin's `Result` and a native call's
      return value together with the exception it may leave pending. */
  datatype Result<+T, +E> = Ok(value: T) | Err(error: E)
}

/** The exceptions the Kotlin layer turns into `Result.failure`. */
module Failures {

  datatype Failure =
    | IllegalState(message: string)       // from `check(...)`
    | IllegalArgument(message: string)    // from `require(...)`
    | Runtime(message: string)            // a `java/lang/RuntimeException` raised by native code
    | UnsatisfiedLink(library: string)    // `System.load` could not load the named binary
}

=== FILE: text.dfy ===
/** The string operations the Kotlin layer applies to prompts, responses and role names. */
module Text {

  /** Kotlin's `Char.isWhitespace` on the JVM: `Character.isWhitespace(c) ||
      Character.isSpaceChar(c)`, i.e. the ASCII controls TAB..CR and FS..US, the
      space separators, and the line and paragraph separators. */
  predicate IsWhitespace(c: char) {
    || '\t' <= c <= '\r'
    || '\U{1C}' <= c <= ' '
    || c == '\U{A0}' || c == '\U{1680}'
    || '\U{2000}' <= c <= '\U{200A}'
    || c == '\U{2028}' || c == '\U{2029}' || c == '\U{202F}' || c == '\U{205F}' || c == '\U{3000}'
  }

  /** The first position from `i` on whose character `drop` rejects, or `|s|`: how far
      the start index of `trim` advances. */
  function SkipStart(drop: char -> bool, s: string, i: nat): (r: nat)
    requires i <= |s|
    decreases |s| - i
    ensures i <= r <= |s|
    ensures forall k :: i <= k < r ==> drop(s[k])
    ensures r < |s| ==> !drop(s[r])
  {
    if i < |s| && drop(s[i]) then SkipStart(drop, s, i + 1) else i
  }

  /** The end index of `trim`: moving down from `j`, past the characters `drop` accepts,
      but never below `lo`. */
  function SkipEnd(drop: char -> bool, s: string, lo: nat, j: nat): (r: nat)
    requires lo <= j <= |s|
    decreases j - lo
    ensures lo <= r <= j
    ensures forall k :: r <= k < j ==> drop(s[k])
    ensures lo < r ==> !drop(s[r - 1])
  {
    if lo < j && drop(s[j - 1]) then SkipEnd(drop, s, lo, j - 1) else j
  }

  /** Where `TrimBy(drop, s)` starts inside `s`. */
  function TrimByStart(drop: char -> bool, s: string): nat {
    SkipStart(drop, s, 0)
  }

  /** Where `TrimBy(drop, s)` ends inside `s`. */
  function TrimByEnd(drop: char -> bool, s: string): (r: nat)
    ensures TrimByStart(drop, s) <= r <= |s|
  {
    SkipEnd(drop, s, TrimByStart(drop, s), |s|)
  }

  /** Kotlin's `CharSequence.trim(predicate)`: the start index moves right, then the end
      index moves left, past the characters that satisfy `drop`. */
  function TrimBy(drop: char -> bool, s: string): string {
    s[TrimByStart(drop, s)..TrimByEnd(drop, s)]
  }

  /** `s[i..j]` is what remains of `s` when characters satisfying `drop` are removed from
      both ends, as many or as few as one likes. */
  ghost predicate IsStripping(drop: char -> bool, s: string, i: int, j: int) {
    && 0 <= i <= j <= |s|
    && (forall k | 0 <= k < i :: drop(s[k]))
    && (forall k | j <= k < |s| :: drop(s[k]))
  }

  /** A stripping that stops at characters `drop` rejects on both sides. */
  ghost predicate IsMaximalStripping(drop: char -> bool, s: string, i: int, j: int) {
    IsStripping(drop, s, i, j) && (i < j ==> !drop(s[i]) && !drop(s[j - 1]))
  }

  /** `TrimBy(drop, s)` is the maximal stripping of `s`. */
  lemma TrimByBounds(drop: char -> bool, s: string)
    ensures IsMaximalStripping(drop, s, TrimByStart(drop, s), TrimByEnd(drop, s))
  {
  }

  /** A character `drop` rejects survives every stripping. */
  lemma InsideStripping(drop: char -> bool, s: string, i: int, j: int, k: int)
    requires IsStripping(drop, s, i, j) && 0 <= k < |s| && !drop(s[k])
    ensures i <= k < j
  {
  }

  /** Two maximal strippings of the same string coincide. */
  lemma MaximalStrippingUnique(drop: char -> bool, s: string, i: int, j: int, i': int, j': int)
    requires IsMaximalStripping(drop, s, i, j) && IsMaximalStripping(drop, s, i', j')
    ensures s[i..j] == s[i'..j']
  {
    if i < j {
      InsideStripping(drop, s, i', j', i);
      InsideStripping(drop, s, i', j', j - 1);
      InsideStripping(drop, s, i, j, i');
      InsideStripping(drop, s, i, j, j' - 1);
    } else if i' < j' {
      InsideStripping(drop, s, i, j, i');
    }
  }

  /** Trimming removes the MOST it can: any stripping of `s` that leaves no droppable
      character at either end is `TrimBy(drop, s)`. */
  lemma TrimByIsMaximalStripping(drop: char -> bool, s: string, i: int, j: int)
    requires IsMaximalStripping(drop, s, i, j)
    ensures s[i..j] == TrimBy(drop, s)
  {
    TrimByBounds(drop, s);
    MaximalStrippingUnique(drop, s, i, j, TrimByStart(drop, s), TrimByEnd(drop, s));
  }

  /** Kotlin's `String.trim()`: `trim(Char::isWhitespace)`. */
  function Trim(s: string): (r: string)
    ensures exists i, j :: IsMaximalStripping(IsWhitespace, s, i, j) && s[i..j] == r
  {
    TrimByBounds(IsWhitespace, s);
    TrimBy(IsWhitespace, s)
  }

  /** Trimming twice is trimming once. */
  lemma TrimIdempotent(s: string)
    ensures Trim(Trim(s)) == Trim(s)
  {
    TrimByBounds(IsWhitespace, s);
    var i, j := TrimByStart(IsWhitespace, s), TrimByEnd(IsWhitespace, s);
    var t := Trim(s);
    assert t[0..|t|] == t;
    if |t| > 0 {
      assert t[0] == s[i] && t[|t| - 1] == s[j - 1];
    }
    TrimByIsMaximalStripping(IsWhitespace, t, 0, |t|);
  }

  /** The in-order concatenation of the decoded pieces (`response += piece`). */
  function Concat(pieces: seq<string>): string {
    if |pieces| == 0 then "" else Concat(pieces[..|pieces| - 1]) + pieces[|pieces| - 1]
  }

  /** A concatenation is empty exactly when every piece is. */
  lemma {:induction false} ConcatEmpty(pieces: seq<string>)
    ensures Concat(pieces) == "" <==> forall i :: 0 <= i < |pieces| ==> pieces[i] == ""
  {
    if |pieces| > 0 {
      var init := pieces[..|pieces| - 1];
      ConcatEmpty(init);
      assert forall i :: 0 <= i < |init| ==> init[i] == pieces[i];
    }
  }

  /** What `NewStringUTF(s.c_str())` hands to Java: the C string ends at the first NUL
      character, so only the text before it arrives. */
  function UpToNul(s: string): (r: string)
    ensures r <= s && '\0' !in r
    ensures |r| < |s| ==> s[|r|] == '\0'
  {
    if |s| == 0 || s[0] == '\0' then "" else [s[0]] + UpToNul(s[1..])
  }

  /** Cutting a concatenation at its first NUL: the cut falls in the first part when that
      part holds a NUL, and otherwise the whole first part arrives. */
  lemma {:induction false} UpToNulConcat(a: string, b: string)
    ensures UpToNul(a + b) == if '\0' in a then UpToNul(a) else a + UpToNul(b)
  {
    if |a| > 0 {
      assert (a + b)[0] == a[0] && (a + b)[1..] == a[1..] + b;
      if a[0] != '\0' {
        UpToNulConcat(a[1..], b);
        assert '\0' in a <==> '\0' in a[1..];
        assert a == [a[0]] + a[1..];
      }
    } else {
      assert a + b == b;
    }
  }

  /** Kotlin's `lowercase()` on one ASCII character. */
  function LowerChar(c: char): char {
    if 'A' <= c <= 'Z' then (c as int + 32) as char else c
  }

  /** Kotlin's `lowercase()` restricted to ASCII letters, which is all the enum names use. */
  function LowerAscii(s: string): (r: string)
    ensures |r| == |s| && forall i :: 0 <= i < |s| ==> r[i] == LowerChar(s[i])
  {
    seq(|s|, i requires 0 <= i < |s| => LowerChar(s[i]))
  }
}

=== FILE: text_generation.dfy ===
/** The `TextGeneration.Llama` companion's `create`: the gate on the load state, then the
    native instance, then the session. */
module TextGeneration {
  import opened Results
  import opened Failures
  import opened Text
  import opened LlamaCpp
  import opened LlamaMessage
  import opened TextGenerationLoad
  import opened LlamaTextGeneration
  import Native = TextGenerationNative
  import NativeLlama = NativeLlamaTextGeneration

  const DefaultContextSize: Int32 := 2048
  const DefaultBatchSize: Int32 := 4096
  const DefaultSystemPrompt: string := ""

  /** The failure of `create` before any load. */
  const NotLoaded := IllegalState("Native binaries were not loaded")

  /** What `create` did: the process afterwards and the new session, if any. */
  datatype Creation = Creation(process: Process, result: Result<Session, Failure>)

  /** `create`. While nothing is loaded it fails before touching native code. */
  function Create(p: Process, llama: Engine, modelPath: string, systemPrompt: string,
                  contextSize: Int32, batchSize: Int32): (r: Creation)
    ensures p.loadState == Unloaded ==> r == Creation(p, Err(NotLoaded))
    ensures r.process.loadState == p.loadState
    ensures p.loadState != Unloaded ==>
      var construct := NativeLlama.Construct(p.native, llama, modelPath, contextSize, batchSize);
      && r.process.native == construct.state
      && (r.result.Ok? <==> construct.result.Ok?)
      && (construct.result.Err? ==> r.result == Err(construct.result.error))
    ensures r.result.Ok? ==>
      && p.loadState != Unloaded
      && Valid(r.result.value)
      && r.result.value.messages == [System(Trim(systemPrompt))]
      && !r.result.value.native.cleaned
      && r.result.value.native.handle in r.process.native.pointers
      && r.process.native.pointers[r.result.value.native.handle].cache == []
  {
    if p.loadState == Unloaded then Creation(p, Err(NotLoaded))
    else
      var construct := NativeLlama.Construct(p.native, llama, modelPath, contextSize, batchSize);
      var process := p.(native := construct.state);
      match construct.result
      case Err(f) => Creation(process, Err(f))
      case Ok(wrapper) => Creation(process, Ok(New(wrapper, systemPrompt)))
  }

  /** `create(modelPath)`, every other argument at its default: an empty system prompt, a
      context of 2048 cells and a batch of 4096. */
  function CreateWithDefaults(p: Process, llama: Engine, modelPath: string): (r: Creation)
    ensures p.loadState == Unloaded ==> r == Creation(p, Err(NotLoaded))
    ensures p.loadState != Unloaded ==>
      var construct := NativeLlama.Construct(p.native, llama, modelPath, 2048, 4096);
      && r.process.native == construct.state
      && (r.result.Ok? <==> construct.result.Ok?)
      && (construct.result.Err? ==> r.result == Err(construct.result.error))
    ensures r.result.Ok? ==> r.result.value.messages == [System("")]
  {
    Create(p, llama, modelPath, DefaultSystemPrompt, DefaultContextSize, DefaultBatchSize)
  }

  /** The defaults: an empty system message, and a context llama.cpp was asked for with
      2048 cells and a batch of 4096. */
  lemma DefaultsReachNative(p: Process, llama: Engine, modelPath: string)
    requires CreateWithDefaults(p, llama, modelPath).result.Ok?
    ensures var r := CreateWithDefaults(p, llama, modelPath);
      && r.result.value.messages == [System("")]
      && llama.initContext(modelPath, 2048, 4096).Some?
      && r.process.native.pointers[r.result.value.native.handle].nBatch == 4096
  {
    var r := CreateWithDefaults(p, llama, modelPath);
    var init := Native.InitNative(p.native, llama, modelPath, DefaultContextSize, DefaultBatchSize);
    assert init.result.Ok?;
  }

  /** Closing any session puts the process back to `Unloaded`, so the next `create` fails
      until binaries are loaded again. */
  lemma CloseDisablesCreate(s: Session, p: Process, llama: Engine, modelPath: string, systemPrompt: string,
                            contextSize: Int32, batchSize: Int32)
    ensures var closed := Close(s, p).1;
      Create(closed, llama, modelPath, systemPrompt, contextSize, batchSize) == Creation(closed, Err(NotLoaded))
  {
  }
}

=== FILE: text_generation_load.dfy ===
/** The process-wide load gate of `TextGeneration.Llama`: the companion's `loadState` and
    the two loaders that move it out of `Unloaded`. */
module TextGenerationLoad {
  import opened Results
  import opened Failures
  import opened NativeLoader
  import Native = TextGenerationNative

  /** `LoadState`: which set of native binaries the process loaded, if any. */
  datatype LoadState = Unloaded | CPU | CUDA

  /** `loadState::class.simpleName`. */
  function SimpleName(state: LoadState): string {
    match state
    case Unloaded => "Unloaded"
    case CPU => "CPU"
    case CUDA => "CUDA"
  }

  /** The process: the companion's `loadState` and the native library's globals. */
  datatype Process = Process(loadState: LoadState, native: Native.NativeState)

  /** A process before anything is loaded. */
  const Start := Process(Unloaded, Native.Empty)

  /** What a loader did: the load state afterwards, the binaries `System.load` was asked
      for, in order, and the loader's `Result`. */
  datatype LoadRun = LoadRun(loadState: LoadState, attempted: seq<string>, result: Result<(), Failure>)

  /** The failure of a loader called while binaries are loaded. */
  function AlreadyLoaded(state: LoadState): Failure {
    IllegalState("Native binaries have already been loaded as " + SimpleName(state))
  }

  /** The body both loaders share, inside `runCatching`: the `check`, the loads in order,
      and only then the assignment. */
  function LoadAs(state: LoadState, target: LoadState, paths: seq<string>, loads: string -> bool): (r: LoadRun)
    requires target != Unloaded
    ensures state != Unloaded ==> r == LoadRun(state, [], Err(AlreadyLoaded(state)))
    ensures r.result.Ok? <==> state == Unloaded && AllLoad(paths, loads)
    ensures r.result.Ok? ==> r.loadState == target && r.attempted == paths
    ensures r.result.Err? ==> r.loadState == state
    ensures r.attempted <= paths
    ensures state == Unloaded && r.result.Err? ==>
      && |r.attempted| > 0
      && r.result == Err(UnsatisfiedLink(r.attempted[|r.attempted| - 1]))
      && !loads(r.attempted[|r.attempted| - 1])
      && AllLoad(r.attempted[..|r.attempted| - 1], loads)
  {
    if state != Unloaded then LoadRun(state, [], Err(AlreadyLoaded(state)))
    else
      var outcome := LoadInOrder(paths, loads);
      match outcome.failed
      case Some(path) => LoadRun(state, outcome.attempted, Err(UnsatisfiedLink(path)))
      case None => LoadRun(target, outcome.attempted, Ok(()))
  }

  /** The order `loadCPU` loads its binaries in. */
  function CpuOrder(ggmlBase: string, ggmlCpu: string, ggmlRpc: string, ggml: string, llama: string, textGeneration: string): seq<string> {
    [ggmlBase, ggmlCpu, ggmlRpc, ggml, llama, textGeneration]
  }

  /** The order `loadCUDA` loads its binaries in. */
  function CudaOrder(ggmlBase: string, ggmlCpu: string, ggmlCuda: string, ggmlRpc: string, ggml: string, llama: string,
                     textGeneration: string): seq<string> {
    [ggmlBase, ggmlCpu, ggmlCuda, ggmlRpc, ggml, llama, textGeneration]
  }

  /** `loadCPU`; `loads(path)` says whether `System.load(path)` returns normally. */
  function LoadCPU(state: LoadState, loads: string -> bool, ggmlBase: string, ggmlCpu: string, ggmlRpc: string,
                   ggml: string, llama: string, textGeneration: string): (r: LoadRun)
    ensures state != Unloaded ==> r == LoadRun(state, [], Err(AlreadyLoaded(state)))
    ensures r.result.Ok? <==> state == Unloaded && AllLoad(CpuOrder(ggmlBase, ggmlCpu, ggmlRpc, ggml, llama, textGeneration), loads)
    ensures r.result.Ok? ==> r.loadState == CPU && r.attempted == [ggmlBase, ggmlCpu, ggmlRpc, ggml, llama, textGeneration]
    ensures r.result.Err? ==> r.loadState == state
    ensures r.attempted <= [ggmlBase, ggmlCpu, ggmlRpc, ggml, llama, textGeneration]
  {
    LoadAs(state, CPU, CpuOrder(ggmlBase, ggmlCpu, ggmlRpc, ggml, llama, textGeneration), loads)
  }

  /** `loadCUDA`: the CPU binaries with `ggmlCuda` loaded third. */
  function LoadCUDA(state: LoadState, loads: string -> bool, ggmlBase: string, ggmlCpu: string, ggmlCuda: string,
                    ggmlRpc: string, ggml: string, llama: string, textGeneration: string): (r: LoadRun)
    ensures state != Unloaded ==> r == LoadRun(state, [], Err(AlreadyLoaded(state)))
    ensures r.result.Ok? <==>
      state == Unloaded && AllLoad(CudaOrder(ggmlBase, ggmlCpu, ggmlCuda, ggmlRpc, ggml, llama, textGeneration), loads)
    ensures r.result.Ok? ==> r.loadState == CUDA && r.attempted == [ggmlBase, ggmlCpu, ggmlCuda, ggmlRpc, ggml, llama, textGeneration]
    ensures r.result.Err? ==> r.loadState == state
    ensures r.attempted <= [ggmlBase, ggmlCpu, ggmlCuda, ggmlRpc, ggml, llama, textGeneration]
  {
    LoadAs(state, CUDA, CudaOrder(ggmlBase, ggmlCpu, ggmlCuda, ggmlRpc, ggml, llama, textGeneration), loads)
  }

  /** Whichever binary is the first that fails to load stops the sequence there: only the
      binaries up to and including it were attempted, the failure names it, and the state
      stays `Unloaded`. */
  lemma FailedLoadStaysUnloaded(target: LoadState, paths: seq<string>, loads: string -> bool, k: nat)
    requires target != Unloaded
    requires k < |paths| && !loads(paths[k]) && AllLoad(paths[..k], loads)
    ensures LoadAs(Unloaded, target, paths, loads) == LoadRun(Unloaded, paths[..k + 1], Err(UnsatisfiedLink(paths[k])))
  {
    var r := LoadAs(Unloaded, target, paths, loads);
    assert !AllLoad(paths, loads);
    var n := |r.attempted| - 1;
    assert r.attempted == paths[..n + 1] && r.attempted[n] == paths[n];
    assert forall i :: 0 <= i < k ==> loads(paths[i]) by {
      forall i | 0 <= i < k ensures loads(paths[i]) {
        assert paths[..k][i] == paths[i];
      }
    }
    assert forall i :: 0 <= i < n ==> loads(paths[i]) by {
      forall i | 0 <= i < n ensures loads(paths[i]) {
        assert r.attempted[..n][i] == paths[i];
      }
    }
    assert n == k;
  }

  /** Once either loader succeeds, both fail until a `close` and change nothing. */
  lemma SecondLoadFails(state: LoadState, loads: string -> bool, paths: seq<string>, target: LoadState,
                        again: seq<string>, target': LoadState)
    requires target != Unloaded && target' != Unloaded
    requires LoadAs(state, target, paths, loads).result.Ok?
    ensures var first := LoadAs(state, target, paths, loads).loadState;
      LoadAs(first, target', again, loads) == LoadRun(first, [], Err(AlreadyLoaded(target)))
  {
  }
}

=== FILE: text_generation_native.dfy ===
/** The text-generation JNI library: its handle registry, its generation loop and its
    three entry points `initNative`, `generateNative` and `freeNative`. */
module TextGenerationNative {
  import opened Results
  import opened Text
  import opened LlamaCpp

  /** The `std::runtime_error`s the library raises; each reaches Java as a
      `RuntimeException` carrying `Message(e)`. */
  datatype Error =
    | EmptyModelPath
    | FailedToLoadModel
    | FailedToCreateContext
    | InvalidHandle
    | FailedToGetVocab
    | FailedToInitSampler
    | FailedToTokenize
    | ContextSizeExceeded
    | FailedToDecode
    | FailedToConvertToken
    | UnableToGenerate
    | UnableToFree

  function Message(e: Error): string {
    match e
    case EmptyModelPath => "Model path should not be empty"
    case FailedToLoadModel => "Failed to load model"
    case FailedToCreateContext => "Failed to create context"
    case InvalidHandle => "Invalid handle"
    case FailedToGetVocab => "Failed to get model vocab"
    case FailedToInitSampler => "Failed to initialize sampler"
    case FailedToTokenize => "Failed to tokenize the prompt"
    case ContextSizeExceeded => "Context size exceeded"
    case FailedToDecode => "Failed to decode"
    case FailedToConvertToken => "Failed to convert token to piece"
    case UnableToGenerate => "Unable to generate response"
    case UnableToFree => "Unable to free native pointer"
  }

  /** One `llama_context`: its `llama_n_ctx`, its `n_batch`, and the tokens in its KV cache
      (`llama_get_kv_cache_used_cells` is the cache's length). */
  datatype Context = Context(nCtx: Uint32, nBatch: Uint32, cache: seq<Token>)

  /** The library's globals: the `pointers` registry from handle to context, the single
      `model` (named by the file it was loaded from), and how many sampler chains were
      allocated and never freed. */
  datatype NativeState = NativeState(pointers: map<int, Context>, model: Option<string>, leakedSamplers: nat)

  /** The state after an entry point returns, and its value or the exception it raised. */
  datatype Call<T> = Call(state: NativeState, result: Result<T, Error>)

  /** A fresh library: no contexts, no model. */
  const Empty := NativeState(map[], None, 0)

  /** Some model is loaded whenever a context is registered. It need not be the model the
      context was created from: a later `initNative` replaces the global model and leaves
      the older contexts registered. */
  predicate Consistent(ns: NativeState) {
    ns.pointers != map[] ==> ns.model.Some?
  }

  /** `initNative`: load the model (replacing the global one), create a context and register
      it under its own address. Every failure returns -1 with an exception pending, which is
      what `Err` stands for. */
  function InitNative(ns: NativeState, llama: Engine, modelPath: string, contextSize: Int32, batchSize: Int32): (c: Call<int>)
    ensures modelPath == "" ==> c == Call(ns, Err(EmptyModelPath))
    ensures modelPath != "" && !llama.loadModel(modelPath) ==> c == Call(ns, Err(FailedToLoadModel))
    ensures modelPath != "" && llama.loadModel(modelPath) ==> c.state.model == Some(modelPath)
    ensures c.result.Ok? <==>
      modelPath != "" && llama.loadModel(modelPath)
      && llama.initContext(modelPath, AsUint32(contextSize), AsUint32(batchSize)).Some?
    ensures c.result.Ok? ==>
      && c.result.value in c.state.pointers
      && c.state.pointers[c.result.value].cache == []
      && c.state.pointers[c.result.value].nBatch == AsUint32(batchSize)
      && c.state.pointers.Keys == ns.pointers.Keys + {c.result.value}
      && (forall h :: h in ns.pointers && h != c.result.value ==> c.state.pointers[h] == ns.pointers[h])
    ensures c.result.Err? ==> c.state.pointers == ns.pointers
    ensures c.state.leakedSamplers == ns.leakedSamplers
  {
    if modelPath == "" then Call(ns, Err(EmptyModelPath))
    else if !llama.loadModel(modelPath) then Call(ns, Err(FailedToLoadModel))
    else
      var withModel := ns.(model := Some(modelPath));
      match llama.initContext(modelPath, AsUint32(contextSize), AsUint32(batchSize))
      case None => Call(withModel, Err(FailedToCreateContext))
      case Some(alloc) =>
        var handle := alloc.address;
        Call(withModel.(pointers := ns.pointers[handle := Context(alloc.nCtx, AsUint32(batchSize), [])]), Ok(handle))
  }

  /** The sampler chain `generateNative` builds: top-k, top-p keeping at least one
      candidate, then a seeded distribution sampler for a positive seed and the greedy
      sampler otherwise, then temperature and repetition penalties. */
  function SamplerChain(temperature: F32, topP: F32, repetitionPenalty: F32, topK: Int32, seed: Int32): (chain: seq<SamplerStage>)
    ensures |chain| == 5 && chain[0] == TopK(topK) && chain[3] == Temp(temperature)
    ensures Dist(AsUint32(seed)) in chain <==> seed > 0
    ensures Greedy in chain <==> seed <= 0
  {
    [ TopK(topK),
      TopP(topP, 1),
      if seed > 0 then Dist(seed) else Greedy,
      Temp(temperature),
      Penalties(0, repetitionPenalty, F32(0), F32(0)) ]
  }

  /** What the generation loop leaves behind: the context's cache after the last
      successful decode, the tokens sampled that did not end generation, their pieces, and
      the response or the error that stopped it. */
  datatype LoopRun = LoopRun(cache: seq<Token>, tokens: seq<Token>, pieces: seq<string>, result: Result<string, Error>)

  /** The `generate` loop on a context whose cache held `cache0` and a tokenised prompt,
      after it has sampled `tokens` (whose pieces make up `response`). Each round checks the
      context budget, decodes the pending batch, samples a token, stops at the first
      end-of-generation token and otherwise appends the token's piece. */
  function GenerateLoop(llama: Engine, model: string, chain: seq<SamplerStage>, nCtx: Int32, nBatch: Uint32,
                        cache0: seq<Token>, prompt: seq<Token>, tokens: seq<Token>, pieces: seq<string>,
                        response: string): (r: LoopRun)
    requires |pieces| == |tokens| && response == Concat(pieces)
    decreases nCtx - |cache0| - |prompt| - |tokens| + 1
    ensures tokens <= r.tokens && pieces <= r.pieces && |r.pieces| == |r.tokens|
    ensures SampledRun(llama, model, chain, cache0 + prompt, r.tokens, r.pieces, |tokens|)
    ensures |cache0| + |prompt| + |tokens| > nCtx ==>
      r == LoopRun(CacheBefore(cache0, prompt, tokens), tokens, pieces, Err(ContextSizeExceeded))
    ensures (&& |cache0| + |prompt| + |tokens| <= nCtx
             && !llama.decode(model, nBatch, CacheBefore(cache0, prompt, tokens), PendingBatch(prompt, tokens))) ==>
      r == LoopRun(CacheBefore(cache0, prompt, tokens), tokens, pieces, Err(FailedToDecode))
    ensures r.cache == CacheBefore(cache0, prompt, tokens) || |r.cache| <= nCtx
    ensures r.result.Ok? ==>
      && r.cache == cache0 + prompt + r.tokens
      && |r.cache| <= nCtx
      && llama.isEog(model, llama.sample(model, chain, r.cache, r.tokens))
      && r.result.value == Concat(r.pieces)
    ensures r.result.Err? ==> r.result.error in {ContextSizeExceeded, FailedToDecode, FailedToConvertToken}
    ensures r.result == Err(ContextSizeExceeded) ==>
      r.cache == CacheBefore(cache0, prompt, r.tokens) && |cache0| + |prompt| + |r.tokens| > nCtx
    ensures r.result == Err(FailedToDecode) ==>
      && r.cache == CacheBefore(cache0, prompt, r.tokens)
      && |cache0| + |prompt| + |r.tokens| <= nCtx
      && !llama.decode(model, nBatch, r.cache, PendingBatch(prompt, r.tokens))
    ensures r.result == Err(FailedToConvertToken) ==>
      && r.cache == cache0 + prompt + r.tokens
      && !llama.isEog(model, llama.sample(model, chain, r.cache, r.tokens))
      && llama.tokenToPiece(model, llama.sample(model, chain, r.cache, r.tokens)).None?
  {
    var cache := CacheBefore(cache0, prompt, tokens);
    var batch := PendingBatch(prompt, tokens);
    DecodeCompletesCache(cache0, prompt, tokens);
    if |cache| + |batch| > nCtx then LoopRun(cache, tokens, pieces, Err(ContextSizeExceeded))
    else if !llama.decode(model, nBatch, cache, batch) then LoopRun(cache, tokens, pieces, Err(FailedToDecode))
    else
      var decoded := cache + batch;
      var token := llama.sample(model, chain, decoded, tokens);
      if llama.isEog(model, token) then LoopRun(decoded, tokens, pieces, Ok(response))
      else
        match llama.tokenToPiece(model, token)
        case None => LoopRun(decoded, tokens, pieces, Err(FailedToConvertToken))
        case Some(piece) =>
          var r := GenerateLoop(llama, model, chain, nCtx, nBatch, cache0, prompt, tokens + [token], pieces + [piece], response + piece);
          ExtendRun(llama, model, chain, cache0 + prompt, tokens, pieces, token, piece, r.tokens, r.pieces);
          r
  }

  /** On an engine whose every decode succeeds, whose every token has a piece, and which
      draws end-of-generation once `k` tokens have been sampled, a loop that starts with
      room in the context for the prompt and `k` tokens succeeds, having sampled at most
      `k` tokens. */
  lemma LoopSucceeds(llama: Engine, model: string, chain: seq<SamplerStage>, nCtx: Int32, nBatch: Uint32,
                     cache0: seq<Token>, prompt: seq<Token>, k: nat)
    requires forall cache, batch :: llama.decode(model, nBatch, cache, batch)
    requires forall token :: llama.tokenToPiece(model, token).Some?
    requires forall cache, sampled :: |sampled| >= k ==> llama.isEog(model, llama.sample(model, chain, cache, sampled))
    requires |cache0| + |prompt| + k <= nCtx
    ensures var r := GenerateLoop(llama, model, chain, nCtx, nBatch, cache0, prompt, [], [], "");
      r.result.Ok? && |r.tokens| <= k
  {
    var r := GenerateLoop(llama, model, chain, nCtx, nBatch, cache0, prompt, [], [], "");
    if |r.tokens| > 0 {
      var last := |r.tokens| - 1;
      assert !llama.isEog(model, llama.sample(model, chain, cache0 + prompt + r.tokens[..last], r.tokens[..last]));
      assert |r.tokens[..last]| == last;
      assert last < k;
    }
    assert llama.decode(model, nBatch, r.cache, PendingBatch(prompt, r.tokens));
    var next := llama.sample(model, chain, r.cache, r.tokens);
    assert llama.tokenToPiece(model, next).Some?;
  }

  /** `generateNative`: look the handle up, format the messages with the model's chat
      template, build the sampler chain and run the generation loop on the handle's context.
      The context keeps whatever was decoded, even when the call fails; the sampler chain is
      freed when the call fails and, as written, left allocated when it succeeds. */
  function GenerateNative(ns: NativeState, llama: Engine, handle: int, messages: seq<ChatMessage>,
                          temperature: F32, topP: F32, repetitionPenalty: F32, topK: Int32, seed: Int32): (c: Call<string>)
    ensures handle !in ns.pointers ==> c == Call(ns, Err(InvalidHandle))
    ensures c.state.pointers.Keys == ns.pointers.Keys && c.state.model == ns.model
    ensures forall h :: h in ns.pointers && h != handle ==> c.state.pointers[h] == ns.pointers[h]
    ensures handle in ns.pointers ==>
      && c.state.pointers[handle].nCtx == ns.pointers[handle].nCtx
      && c.state.pointers[handle].nBatch == ns.pointers[handle].nBatch
      && (c.state.pointers[handle].cache == ns.pointers[handle].cache
          || |c.state.pointers[handle].cache| <= AsInt32(ns.pointers[handle].nCtx))
    ensures c.result.Ok? ==> c.result.value != ""
    ensures c.result.Ok? <==> c.state.leakedSamplers == ns.leakedSamplers + 1
    ensures c.result.Err? ==> c.state.leakedSamplers == ns.leakedSamplers
    ensures handle in ns.pointers && (ns.model.None? || !llama.hasVocab(ns.model.value)) ==>
      c == Call(ns, Err(FailedToGetVocab))
    ensures handle in ns.pointers && ns.model.Some? && llama.hasVocab(ns.model.value) && !llama.samplerChainInit ==>
      c == Call(ns, Err(FailedToInitSampler))
    ensures handle in ns.pointers && ns.model.Some? && llama.hasVocab(ns.model.value) && llama.samplerChainInit ==>
      var model := ns.model.value;
      var context := ns.pointers[handle];
      var promptTokens := llama.tokenize(model, llama.chatTemplate(model, messages), |context.cache| == 0);
      && (promptTokens.None? ==> c == Call(ns, Err(FailedToTokenize)))
      && (promptTokens.Some? ==>
            var run := GenerateLoop(llama, model, SamplerChain(temperature, topP, repetitionPenalty, topK, seed),
                                    AsInt32(context.nCtx), context.nBatch, context.cache, promptTokens.value, [], [], "");
            && c.state.pointers[handle] == context.(cache := run.cache)
            && (run.result.Err? ==> c.result == run.result)
            && (run.result == Ok("") ==> c.result == Err(UnableToGenerate))
            && (run.result.Ok? && run.result.value != "" ==> c.result == run.result))
  {
    if handle !in ns.pointers then Call(ns, Err(InvalidHandle))
    else if ns.model.None? || !llama.hasVocab(ns.model.value) then Call(ns, Err(FailedToGetVocab))
    else if !llama.samplerChainInit then Call(ns, Err(FailedToInitSampler))
    else
      var model := ns.model.value;
      var context := ns.pointers[handle];
      var prompt := llama.chatTemplate(model, messages);
      var chain := SamplerChain(temperature, topP, repetitionPenalty, topK, seed);
      match llama.tokenize(model, prompt, |context.cache| == 0)
      case None => Call(ns, Err(FailedToTokenize))
      case Some(promptTokens) =>
        var run := GenerateLoop(llama, model, chain, AsInt32(context.nCtx), context.nBatch,
                                context.cache, promptTokens, [], [], "");
        var after := ns.(pointers := ns.pointers[handle := context.(cache := run.cache)]);
        if run.result.Err? then Call(after, Err(run.result.error))
        else if run.result.value == "" then Call(after, Err(UnableToGenerate))
        else Call(after.(leakedSamplers := ns.leakedSamplers + 1), Ok(run.result.value))
  }

  /** `generateNative` succeeds on a registered handle whose model has a vocabulary, when
      the sampler chain is allocated, the conversation tokenises, every decode succeeds,
      every token has a piece, the first draw neither ends generation nor has an empty
      piece, and the engine ends generation once `k` tokens are sampled with room in the
      context for them. */
  lemma GenerateNativeSucceeds(ns: NativeState, llama: Engine, handle: int, messages: seq<ChatMessage>,
                               temperature: F32, topP: F32, repetitionPenalty: F32, topK: Int32, seed: Int32, k: nat)
    requires handle in ns.pointers && ns.model.Some? && llama.hasVocab(ns.model.value) && llama.samplerChainInit
    requires llama.tokenize(ns.model.value, llama.chatTemplate(ns.model.value, messages), |ns.pointers[handle].cache| == 0).Some?
    requires forall cache, batch :: llama.decode(ns.model.value, ns.pointers[handle].nBatch, cache, batch)
    requires forall token :: llama.tokenToPiece(ns.model.value, token).Some?
    requires forall cache, sampled :: |sampled| >= k ==>
      llama.isEog(ns.model.value, llama.sample(ns.model.value, SamplerChain(temperature, topP, repetitionPenalty, topK, seed), cache, sampled))
    requires var first := llama.sample(ns.model.value, SamplerChain(temperature, topP, repetitionPenalty, topK, seed),
      ns.pointers[handle].cache + llama.tokenize(ns.model.value, llama.chatTemplate(ns.model.value, messages), |ns.pointers[handle].cache| == 0).value, []);
      !llama.isEog(ns.model.value, first) && llama.tokenToPiece(ns.model.value, first).value != ""
    requires |ns.pointers[handle].cache|
      + |llama.tokenize(ns.model.value, llama.chatTemplate(ns.model.value, messages), |ns.pointers[handle].cache| == 0).value| + k
      <= AsInt32(ns.pointers[handle].nCtx)
    ensures GenerateNative(ns, llama, handle, messages, temperature, topP, repetitionPenalty, topK, seed).result.Ok?
  {
    var model := ns.model.value;
    var context := ns.pointers[handle];
    var chain := SamplerChain(temperature, topP, repetitionPenalty, topK, seed);
    var prompt := llama.tokenize(model, llama.chatTemplate(model, messages), |context.cache| == 0).value;
    LoopSucceeds(llama, model, chain, AsInt32(context.nCtx), context.nBatch, context.cache, prompt, k);
    var run := GenerateLoop(llama, model, chain, AsInt32(context.nCtx), context.nBatch, context.cache, prompt, [], [], "");
    assert run.tokens != [] by {
      assert run.cache == context.cache + prompt + run.tokens;
      assert llama.isEog(model, llama.sample(model, chain, run.cache, run.tokens));
    }
    assert run.tokens[..0] == [];
    assert run.tokens[0] == llama.sample(model, chain, context.cache + prompt, []);
    assert llama.tokenToPiece(model, run.tokens[0]) == Some(run.pieces[0]);
    ConcatEmpty(run.pieces);
  }

  /** A successful `generateNative` returns the in-order pieces of the tokens sampled after
      the formatted conversation, each drawn after the ones before it, none ending
      generation; the next draw does end it, every token is left in the context's cache,
      and the cache stays within `n_ctx`. */
  lemma GenerateNativeResponse(ns: NativeState, llama: Engine, handle: int, messages: seq<ChatMessage>,
                               temperature: F32, topP: F32, repetitionPenalty: F32, topK: Int32, seed: Int32)
    requires GenerateNative(ns, llama, handle, messages, temperature, topP, repetitionPenalty, topK, seed).result.Ok?
    ensures handle in ns.pointers && ns.model.Some?
    ensures var model := ns.model.value;
      var context := ns.pointers[handle];
      var promptTokens := llama.tokenize(model, llama.chatTemplate(model, messages), |context.cache| == 0);
      var chain := SamplerChain(temperature, topP, repetitionPenalty, topK, seed);
      var c := GenerateNative(ns, llama, handle, messages, temperature, topP, repetitionPenalty, topK, seed);
      && promptTokens.Some?
      && var run := GenerateLoop(llama, model, chain, AsInt32(context.nCtx), context.nBatch, context.cache,
                                 promptTokens.value, [], [], "");
         && SampledRun(llama, model, chain, context.cache + promptTokens.value, run.tokens, run.pieces, 0)
         && c.result.value == Concat(run.pieces)
         && c.state.pointers[handle].cache == context.cache + promptTokens.value + run.tokens
         && |c.state.pointers[handle].cache| <= AsInt32(context.nCtx)
         && llama.isEog(model, llama.sample(model, chain, c.state.pointers[handle].cache, run.tokens))
  {
  }

  /** `freeNative`: erase the handle's entry, raising an exception when there is none. */
  function FreeNative(ns: NativeState, handle: int): (c: Call<()>)
    ensures c.result.Ok? <==> handle in ns.pointers
    ensures c.state.pointers.Keys == ns.pointers.Keys - {handle}
    ensures forall h :: h in c.state.pointers ==> c.state.pointers[h] == ns.pointers[h]
    ensures c.result.Err? ==> c == Call(ns, Err(UnableToFree))
  {
    if handle in ns.pointers then Call(ns.(pointers := ns.pointers - {handle}), Ok(()))
    else Call(ns, Err(UnableToFree))
  }

  /** A context created at an address not in use is one new registry entry, and freeing
      it restores the registry exactly. */
  lemma InitThenFree(ns: NativeState, llama: Engine, modelPath: string, contextSize: Int32, batchSize: Int32)
    requires InitNative(ns, llama, modelPath, contextSize, batchSize).result.Ok?
    requires InitNative(ns, llama, modelPath, contextSize, batchSize).result.value !in ns.pointers
    ensures var init := InitNative(ns, llama, modelPath, contextSize, batchSize);
      && |init.state.pointers| == |ns.pointers| + 1
      && FreeNative(init.state, init.result.value).result.Ok?
      && FreeNative(init.state, init.result.value).state.pointers == ns.pointers
  {
    var init := InitNative(ns, llama, modelPath, contextSize, batchSize);
    var h := init.result.value;
    assert init.state.pointers.Keys == ns.pointers.Keys + {h};
    assert |init.state.pointers.Keys| == |ns.pointers.Keys| + 1;
    var freed := FreeNative(init.state, h);
    assert freed.state.pointers.Keys == ns.pointers.Keys;
  }

  /** Once a handle is freed, generating on it fails with "Invalid handle" and changes
      nothing, and freeing it again fails with "Unable to free native pointer". */
  lemma FreedHandleIsInvalid(ns: NativeState, llama: Engine, handle: int, messages: seq<ChatMessage>,
                             temperature: F32, topP: F32, repetitionPenalty: F32, topK: Int32, seed: Int32)
    ensures var freed := FreeNative(ns, handle).state;
      && GenerateNative(freed, llama, handle, messages, temperature, topP, repetitionPenalty, topK, seed)
         == Call(freed, Err(InvalidHandle))
      && FreeNative(freed, handle) == Call(freed, Err(UnableToFree))
  {
  }

  /** Every entry point keeps `Consistent`: a context only enters the registry after a
      model became the global one, and nothing clears the model. */
  lemma EntryPointsKeepConsistent(ns: NativeState, llama: Engine, modelPath: string, contextSize: Int32,
                                  batchSize: Int32, handle: int, messages: seq<ChatMessage>,
                                  temperature: F32, topP: F32, repetitionPenalty: F32, topK: Int32, seed: Int32)
    requires Consistent(ns)
    ensures Consistent(InitNative(ns, llama, modelPath, contextSize, batchSize).state)
    ensures Consistent(GenerateNative(ns, llama, handle, messages, temperature, topP, repetitionPenalty, topK, seed).state)
    ensures Consistent(FreeNative(ns, handle).state)
  {
  }
}

=== FILE: text_to_text.dfy ===
/** The `TextToText.Llama` companion: the `isLoaded` flag, `load` and `create`. */
module TextToText {
  import opened Results
  import opened Failures
  import opened Text
  import opened LlamaCpp
  import opened NativeLoader
  import opened LlamaTextToText
  import Native = TextToTextNative
  import NativeLlama = NativeLlamaTextToText

  const DefaultContextSize: Int32 := 2048
  const DefaultBatchSize: Int32 := 4096

  /** The process: the companion's `isLoaded` and the native library's globals. */
  datatype Process = Process(isLoaded: bool, native: Native.NativeState)

  /** What `load` did: `isLoaded` afterwards, the binaries `System.load` was asked for, in
      order, and the result. */
  datatype LoadRun = LoadRun(isLoaded: bool, attempted: seq<string>, result: Result<(), Failure>)

  /** The order `load` loads its binaries in. */
  function LoadOrder(ggmlbase: string, ggmlrpc: string, ggmlcpu: string, ggmlcuda: string, ggml: string, llama: string,
                     libttt: string): seq<string> {
    [ggmlbase, ggmlrpc, ggmlcpu, ggmlcuda, ggml, llama, libttt]
  }

  /** `load`: the seven loads in order with no guard against a second call; the flag is
      set by `onSuccess` only. */
  function Load(isLoaded: bool, loads: string -> bool, ggmlbase: string, ggmlrpc: string, ggmlcpu: string,
                ggmlcuda: string, ggml: string, llama: string, libttt: string): (r: LoadRun)
    ensures r.result.Ok? <==> AllLoad(LoadOrder(ggmlbase, ggmlrpc, ggmlcpu, ggmlcuda, ggml, llama, libttt), loads)
    ensures r.result.Ok? ==> r.isLoaded && r.attempted == [ggmlbase, ggmlrpc, ggmlcpu, ggmlcuda, ggml, llama, libttt]
    ensures r.result.Err? ==> r.isLoaded == isLoaded && r.result.error.UnsatisfiedLink?
    ensures r.attempted <= [ggmlbase, ggmlrpc, ggmlcpu, ggmlcuda, ggml, llama, libttt] && |r.attempted| > 0
    ensures r.result.Err? ==>
      && r.result == Err(UnsatisfiedLink(r.attempted[|r.attempted| - 1]))
      && !loads(r.attempted[|r.attempted| - 1])
      && AllLoad(r.attempted[..|r.attempted| - 1], loads)
  {
    var outcome := LoadInOrder(LoadOrder(ggmlbase, ggmlrpc, ggmlcpu, ggmlcuda, ggml, llama, libttt), loads);
    match outcome.failed
    case Some(path) => LoadRun(isLoaded, outcome.attempted, Err(UnsatisfiedLink(path)))
    case None => LoadRun(true, outcome.attempted, Ok(()))
  }

  /** Calling `load` again after a success repeats every load, and succeeding again keeps
      the flag set. */
  lemma LoadRepeats(loads: string -> bool, ggmlbase: string, ggmlrpc: string, ggmlcpu: string, ggmlcuda: string,
                    ggml: string, llama: string, libttt: string)
    requires Load(false, loads, ggmlbase, ggmlrpc, ggmlcpu, ggmlcuda, ggml, llama, libttt).result.Ok?
    ensures Load(true, loads, ggmlbase, ggmlrpc, ggmlcpu, ggmlcuda, ggml, llama, libttt)
         == Load(false, loads, ggmlbase, ggmlrpc, ggmlcpu, ggmlcuda, ggml, llama, libttt)
  {
  }

  /** The failure of `create` before a successful `load`. */
  const NotLoaded := IllegalState("Native binaries were not loaded")

  /** What `create` did: the process afterwards and the new session, if any. */
  datatype Creation = Creation(process: Process, result: Result<Session, Failure>)

  /** `create`. Without a successful `load` it fails before touching native code. */
  function Create(p: Process, llama: Engine, modelPath: string, basePrompt: string, contextSize: Int32,
                  batchSize: Int32): (r: Creation)
    ensures !p.isLoaded ==> r == Creation(p, Err(NotLoaded))
    ensures r.process.isLoaded == p.isLoaded
    ensures p.isLoaded ==>
      var construct := NativeLlama.Construct(p.native, llama, modelPath, contextSize, batchSize);
      && r.process.native == construct.state
      && (r.result.Ok? <==> construct.result.Ok?)
      && (construct.result.Err? ==> r.result == Err(construct.result.error))
    ensures r.result.Ok? ==>
      && p.isLoaded
      && r.result.value.messages == [ChatMessage("system", Trim(basePrompt))]
      && !r.result.value.native.cleaned
      && r.result.value.native.handle in r.process.native.pointers
      && r.process.native.pointers[r.result.value.native.handle].cache == []
  {
    if !p.isLoaded then Creation(p, Err(NotLoaded))
    else
      var construct := NativeLlama.Construct(p.native, llama, modelPath, contextSize, batchSize);
      var process := p.(native := construct.state);
      match construct.result
      case Err(f) => Creation(process, Err(f))
      case Ok(wrapper) => Creation(process, Ok(New(wrapper, basePrompt)))
  }

  /** `create(modelPath, basePrompt)` with the default sizes. */
  function CreateWithDefaults(p: Process, llama: Engine, modelPath: string, basePrompt: string): (r: Creation)
    ensures !p.isLoaded ==> r == Creation(p, Err(NotLoaded))
    ensures p.isLoaded ==>
      var construct := NativeLlama.Construct(p.native, llama, modelPath, 2048, 4096);
      && r.process.native == construct.state
      && (r.result.Ok? <==> construct.result.Ok?)
      && (construct.result.Err? ==> r.result == Err(construct.result.error))
    ensures r.result.Ok? ==> r.result.value.messages == [ChatMessage("system", Trim(basePrompt))]
  {
    Create(p, llama, modelPath, basePrompt, DefaultContextSize, DefaultBatchSize)
  }

  /** The defaults reach llama.cpp as a context of 2048 cells and a batch of 4096. */
  lemma DefaultsReachNative(p: Process, llama: Engine, modelPath: string, basePrompt: string)
    requires CreateWithDefaults(p, llama, modelPath, basePrompt).result.Ok?
    ensures var r := CreateWithDefaults(p, llama, modelPath, basePrompt);
      && llama.initContext(modelPath, 2048, 4096).Some?
      && r.process.native.pointers[r.result.value.native.handle].nBatch == 4096
  {
    var init := Native.InitNative(p.native, llama, modelPath, DefaultContextSize, DefaultBatchSize);
    assert init.result.Ok?;
  }

  /** Unlike text generation, closing a session leaves the process loaded: `create` after
      `close` is not refused. */
  lemma CloseKeepsLoaded(s: Session, p: Process, llama: Engine, modelPath: string, basePrompt: string,
                         contextSize: Int32, batchSize: Int32)
    requires p.isLoaded
    ensures var closed := p.(native := Close(s, p.native).1);
      Create(closed, llama, modelPath, basePrompt, contextSize, batchSize).result != Err(NotLoaded)
  {
    var closed := p.(native := Close(s, p.native).1);
    var construct := NativeLlama.Construct(closed.native, llama, modelPath, contextSize, batchSize);
    if construct.result.Err? {
      var init := Native.InitNative(closed.native, llama, modelPath, contextSize, batchSize);
      assert init.result.Err? || init.result.value == -1;
    }
  }
}

=== FILE: text_to_text_native.dfy ===
/** The text-to-text JNI library: its handle registry and its entry points `initNative`,
    `calculateTokensNative`, `applyTemplateNative`, `generateNative` and `freeNative`. */
module TextToTextNative {
  import opened Results
  import opened Text
  import opened LlamaCpp

  /** The `std::runtime_error`s the library raises; each reaches Java as a
      `RuntimeException` carrying `Message(e)`. */
  datatype Error =
    | EmptyModelPath
    | FailedToLoadModel
    | FailedToCreateContext
    | InvalidHandle
    | FailedToGetVocab
    | FailedToCalculateTokens
    | FailedToTokenizePrompt
    | FailedToInitSampler
    | FailedToDecodeBatch
    | FailedToConvertToken
    | UnableToFree

  function Message(e: Error): string {
    match e
    case EmptyModelPath => "Model path should not be empty"
    case FailedToLoadModel => "Failed to load model"
    case FailedToCreateContext => "Failed to create context"
    case InvalidHandle => "Invalid handle"
    case FailedToGetVocab => "Failed to get model vocab"
    case FailedToCalculateTokens => "Failed to calculate number of tokens"
    case FailedToTokenizePrompt => "Failed to tokenize prompt"
    case FailedToInitSampler => "Failed to initialize sampler"
    case FailedToDecodeBatch => "Failed to decode batch"
    case FailedToConvertToken => "Failed to convert token to piece"
    case UnableToFree => "Unable to free native pointer"
  }

  /** The most pieces one `generateNative` call appends. */
  const MaxPieces: nat := 32

  /** One `llama_context`: its `n_batch` and the tokens in its KV cache. */
  datatype Context = Context(nBatch: Uint32, cache: seq<Token>)

  /** The library's globals: the `pointers` registry, the single `model` (named by the file
      it was loaded from), and how many sampler chains were allocated and never freed. */
  datatype NativeState = NativeState(pointers: map<int, Context>, model: Option<string>, leakedSamplers: nat)

  /** The state after an entry point returns, and its value or the exception it raised. */
  datatype Call<T> = Call(state: NativeState, result: Result<T, Error>)

  /** A fresh library: no contexts, no model, no samplers. */
  const Empty := NativeState(map[], None, 0)

  /** `initNative`: load the model (replacing the global one), create a context and register
      it under its own address. Every failure returns -1 with an exception pending, which is
      what `Err` stands for. */
  function InitNative(ns: NativeState, llama: Engine, modelPath: string, contextSize: Int32, batchSize: Int32): (c: Call<int>)
    ensures modelPath == "" ==> c == Call(ns, Err(EmptyModelPath))
    ensures modelPath != "" && !llama.loadModel(modelPath) ==> c == Call(ns, Err(FailedToLoadModel))
    ensures modelPath != "" && llama.loadModel(modelPath) ==> c.state.model == Some(modelPath)
    ensures c.result.Ok? <==>
      modelPath != "" && llama.loadModel(modelPath)
      && llama.initContext(modelPath, AsUint32(contextSize), AsUint32(batchSize)).Some?
    ensures c.result.Ok? ==>
      && c.result.value in c.state.pointers
      && c.state.pointers[c.result.value].cache == []
      && c.state.pointers.Keys == ns.pointers.Keys + {c.result.value}
      && (forall h :: h in ns.pointers && h != c.result.value ==> c.state.pointers[h] == ns.pointers[h])
    ensures c.result.Err? ==> c.state.pointers == ns.pointers
    ensures c.state.leakedSamplers == ns.leakedSamplers
  {
    if modelPath == "" then Call(ns, Err(EmptyModelPath))
    else if !llama.loadModel(modelPath) then Call(ns, Err(FailedToLoadModel))
    else
      var withModel := ns.(model := Some(modelPath));
      match llama.initContext(modelPath, AsUint32(contextSize), AsUint32(batchSize))
      case None => Call(withModel, Err(FailedToCreateContext))
      case Some(alloc) =>
        Call(withModel.(pointers := ns.pointers[alloc.address := Context(AsUint32(batchSize), [])]), Ok(alloc.address))
  }

  /** The prompt's token count as both `calculateTokensNative` and `generateNative` measure
      it: the special tokens are added only while the context's cache is empty. */
  function CountTokens(llama: Engine, model: string, context: Context, prompt: string): (r: Result<nat, Error>)
    ensures r.Ok? <==> llama.tokenize(model, prompt, |context.cache| == 0).Some?
                       && |llama.tokenize(model, prompt, |context.cache| == 0).value| > 0
    ensures r.Ok? ==> r.value > 0 && r.value == |llama.tokenize(model, prompt, |context.cache| == 0).value|
    ensures r.Err? ==> r.error == FailedToCalculateTokens
  {
    match llama.tokenize(model, prompt, |context.cache| == 0)
    case Some(tokens) => if |tokens| > 0 then Ok(|tokens|) else Err(FailedToCalculateTokens)
    case None => Err(FailedToCalculateTokens)
  }

  /** `calculateTokensNative`: a positive token count, or an exception (the function then
      returns 0). */
  function CalculateTokensNative(ns: NativeState, llama: Engine, handle: int, prompt: string): (c: Call<nat>)
    ensures c.state == ns
    ensures handle !in ns.pointers ==> c.result == Err(InvalidHandle)
    ensures handle in ns.pointers && (ns.model.None? || !llama.hasVocab(ns.model.value)) ==> c.result == Err(FailedToGetVocab)
    ensures handle in ns.pointers && ns.model.Some? && llama.hasVocab(ns.model.value) ==>
      c.result == CountTokens(llama, ns.model.value, ns.pointers[handle], prompt)
    ensures c.result.Ok? ==>
      && handle in ns.pointers && ns.model.Some?
      && var tokens := llama.tokenize(ns.model.value, prompt, |ns.pointers[handle].cache| == 0);
         tokens.Some? && c.result.value == |tokens.value| > 0
    ensures c.result.Err? ==> c.result.error in {InvalidHandle, FailedToGetVocab, FailedToCalculateTokens}
  {
    if handle !in ns.pointers then Call(ns, Err(InvalidHandle))
    else if ns.model.None? || !llama.hasVocab(ns.model.value) then Call(ns, Err(FailedToGetVocab))
    else Call(ns, CountTokens(llama, ns.model.value, ns.pointers[handle], prompt))
  }

  /** On a context whose cache is empty, the count `calculateTokensNative` reports is the
      length of the prompt batch `generateNative` decodes first, and that batch is the
      prompt's tokens with nothing added. */
  lemma CountMatchesFreshPrompt(ns: NativeState, llama: Engine, handle: int, prompt: string)
    requires CalculateTokensNative(ns, llama, handle, prompt).result.Ok?
    requires handle in ns.pointers && |ns.pointers[handle].cache| == 0
    ensures ns.model.Some?
    ensures var n := CalculateTokensNative(ns, llama, handle, prompt).result.value;
      PromptBatch(llama, ns.model.value, prompt, n) == Ok(llama.tokenize(ns.model.value, prompt, true).value)
      && |PromptBatch(llama, ns.model.value, prompt, n).value| == n
  {
    PromptBatchOnFreshContext(llama, ns.model.value, ns.pointers[handle], prompt);
  }

  /** `applyTemplateNative`: the messages formatted by the model's chat template. */
  function ApplyTemplateNative(ns: NativeState, llama: Engine, handle: int, messages: seq<ChatMessage>): (c: Call<string>)
    ensures c.state == ns
    ensures handle !in ns.pointers ==> c.result == Err(InvalidHandle)
    ensures handle in ns.pointers && (ns.model.None? || !llama.hasVocab(ns.model.value)) ==> c.result == Err(FailedToGetVocab)
    ensures handle in ns.pointers && ns.model.Some? && llama.hasVocab(ns.model.value) ==>
      c.result == Ok(llama.chatTemplate(ns.model.value, messages))
    ensures c.result.Ok? ==> ns.model.Some? && c.result.value == llama.chatTemplate(ns.model.value, messages)
  {
    if handle !in ns.pointers then Call(ns, Err(InvalidHandle))
    else if ns.model.None? || !llama.hasVocab(ns.model.value) then Call(ns, Err(FailedToGetVocab))
    else Call(ns, Ok(llama.chatTemplate(ns.model.value, messages)))
  }

  /** The sampler chain `generateNative` builds: greedy, temperature, top-p and min-p
      keeping no minimum, and the three penalties. */
  function SamplerChain(temperature: F32, topP: F32, minP: F32, penaltyRepeat: F32, penaltyFreq: F32, penaltyPresent: F32): (chain: seq<SamplerStage>)
    ensures |chain| == 5 && chain[0] == Greedy
    ensures Temp(temperature) in chain && TopP(topP, 0) in chain && MinP(minP, 0) in chain
    ensures Penalties(0, penaltyRepeat, penaltyFreq, penaltyPresent) in chain
  {
    [Greedy, Temp(temperature), TopP(topP, 0), MinP(minP, 0), Penalties(0, penaltyRepeat, penaltyFreq, penaltyPresent)]
  }

  /** What the generation loop leaves behind: the context's cache after the last successful
      decode, the tokens sampled that did not end generation, their pieces, and the result. */
  datatype LoopRun = LoopRun(cache: seq<Token>, tokens: seq<Token>, pieces: seq<string>, result: Result<string, Error>)

  /** The `for (n_pos = 0; n_pos + batch.n_tokens < nPrompt + 32;)` loop, after it has
      sampled `tokens` (whose pieces make up `result`); `nPos` is the loop's position
      counter, advanced by each decoded batch. */
  function GenerateLoop(llama: Engine, model: string, chain: seq<SamplerStage>, nBatch: Uint32, cache0: seq<Token>,
                        prompt: seq<Token>, nPos: int, tokens: seq<Token>, pieces: seq<string>, result: string): (r: LoopRun)
    requires |pieces| == |tokens| && result == Concat(pieces) && |tokens| <= MaxPieces
    requires if |tokens| == 0 then nPos == 0 else nPos == |prompt| + |tokens| - 1
    decreases |prompt| + MaxPieces - nPos - |PendingBatch(prompt, tokens)|
    ensures tokens <= r.tokens && pieces <= r.pieces && |r.pieces| == |r.tokens|
    ensures |r.tokens| <= MaxPieces
    ensures SampledRun(llama, model, chain, cache0 + prompt, r.tokens, r.pieces, |tokens|)
    ensures r.result.Ok? ==> r.result.value == Concat(r.pieces)
    ensures r.result.Ok? && |r.tokens| < MaxPieces ==>
      r.cache == cache0 + prompt + r.tokens && llama.isEog(model, llama.sample(model, chain, r.cache, r.tokens))
    ensures r.result.Ok? && |r.tokens| == MaxPieces ==> r.cache == CacheBefore(cache0, prompt, r.tokens)
    ensures r.result.Err? ==> r.result.error in {FailedToDecodeBatch, FailedToConvertToken}
    ensures nPos + |PendingBatch(prompt, tokens)| >= |prompt| + MaxPieces ==>
      r == LoopRun(CacheBefore(cache0, prompt, tokens), tokens, pieces, Ok(result))
    ensures (&& nPos + |PendingBatch(prompt, tokens)| < |prompt| + MaxPieces
             && !llama.decode(model, nBatch, CacheBefore(cache0, prompt, tokens), PendingBatch(prompt, tokens))) ==>
      r == LoopRun(CacheBefore(cache0, prompt, tokens), tokens, pieces, Err(FailedToDecodeBatch))
    ensures r.result == Err(FailedToDecodeBatch) ==>
      && r.cache == CacheBefore(cache0, prompt, r.tokens)
      && !llama.decode(model, nBatch, r.cache, PendingBatch(prompt, r.tokens))
    ensures r.result == Err(FailedToConvertToken) ==>
      && r.cache == cache0 + prompt + r.tokens
      && !llama.isEog(model, llama.sample(model, chain, r.cache, r.tokens))
      && llama.tokenToPiece(model, llama.sample(model, chain, r.cache, r.tokens)).None?
  {
    var cache := CacheBefore(cache0, prompt, tokens);
    var batch := PendingBatch(prompt, tokens);
    DecodeCompletesCache(cache0, prompt, tokens);
    if !(nPos + |batch| < |prompt| + MaxPieces) then LoopRun(cache, tokens, pieces, Ok(result))
    else if !llama.decode(model, nBatch, cache, batch) then LoopRun(cache, tokens, pieces, Err(FailedToDecodeBatch))
    else
      var decoded := cache + batch;
      var nPos' := nPos + |batch|;
      var token := llama.sample(model, chain, decoded, tokens);
      if llama.isEog(model, token) then LoopRun(decoded, tokens, pieces, Ok(result))
      else
        match llama.tokenToPiece(model, token)
        case None => LoopRun(decoded, tokens, pieces, Err(FailedToConvertToken))
        case Some(piece) =>
          var r := GenerateLoop(llama, model, chain, nBatch, cache0, prompt, nPos', tokens + [token], pieces + [piece], result + piece);
          ExtendRun(llama, model, chain, cache0 + prompt, tokens, pieces, token, piece, r.tokens, r.pieces);
          r
  }

  /** On an engine whose every decode succeeds and whose every token has a piece, the
      capped loop always succeeds: it ends at the first end-of-generation token or at the
      32-piece cap. */
  lemma LoopSucceeds(llama: Engine, model: string, chain: seq<SamplerStage>, nBatch: Uint32, cache0: seq<Token>,
                     prompt: seq<Token>)
    requires forall cache, batch :: llama.decode(model, nBatch, cache, batch)
    requires forall token :: llama.tokenToPiece(model, token).Some?
    ensures GenerateLoop(llama, model, chain, nBatch, cache0, prompt, 0, [], [], "").result.Ok?
  {
    var r := GenerateLoop(llama, model, chain, nBatch, cache0, prompt, 0, [], [], "");
    assert llama.decode(model, nBatch, r.cache, PendingBatch(prompt, r.tokens));
    var next := llama.sample(model, chain, r.cache, r.tokens);
    assert llama.tokenToPiece(model, next).Some?;
  }

  /** The prompt batch `generateNative` decodes first: `nPrompt` tokens, filled by a second
      tokenisation that always adds the special tokens; a longer tokenisation does not fit
      and fails, a shorter one leaves the rest of the zero-initialised vector in place. */
  function PromptBatch(llama: Engine, model: string, prompt: string, nPrompt: nat): (r: Result<seq<Token>, Error>)
    ensures r.Ok? ==> |r.value| == nPrompt
    ensures r.Ok? <==> llama.tokenize(model, prompt, true).Some? && |llama.tokenize(model, prompt, true).value| <= nPrompt
    ensures r.Ok? ==> r.value[..|llama.tokenize(model, prompt, true).value|] == llama.tokenize(model, prompt, true).value
    ensures r.Err? ==> r.error == FailedToTokenizePrompt
  {
    match llama.tokenize(model, prompt, true)
    case Some(tokens) =>
      if |tokens| <= nPrompt then Ok(tokens + seq(nPrompt - |tokens|, _ => 0)) else Err(FailedToTokenizePrompt)
    case None => Err(FailedToTokenizePrompt)
  }

  /** On a context with an empty cache both tokenisations add the special tokens, so the
      prompt batch is exactly the prompt's tokens, with no padding. */
  lemma PromptBatchOnFreshContext(llama: Engine, model: string, context: Context, prompt: string)
    requires |context.cache| == 0
    requires CountTokens(llama, model, context, prompt).Ok?
    ensures PromptBatch(llama, model, prompt, CountTokens(llama, model, context, prompt).value)
         == Ok(llama.tokenize(model, prompt, true).value)
  {
    var tokens := llama.tokenize(model, prompt, true).value;
    assert tokens + seq(0, _ => 0) == tokens;
  }

  /** `generateNative`: look the handle up, count and tokenise the prompt, build the sampler
      chain and run the capped generation loop on the handle's context. The context keeps
      whatever was decoded, and the sampler chain is freed whether the loop succeeds or not. */
  function GenerateNative(ns: NativeState, llama: Engine, handle: int, prompt: string, temperature: F32, topP: F32,
                          minP: F32, penaltyRepeat: F32, penaltyFreq: F32, penaltyPresent: F32): (c: Call<string>)
    ensures handle !in ns.pointers ==> c == Call(ns, Err(InvalidHandle))
    ensures c.state.pointers.Keys == ns.pointers.Keys && c.state.model == ns.model
    ensures c.state.leakedSamplers == ns.leakedSamplers
    ensures forall h :: h in ns.pointers && h != handle ==> c.state.pointers[h] == ns.pointers[h]
    ensures handle in ns.pointers ==> c.state.pointers[handle].nBatch == ns.pointers[handle].nBatch
    ensures handle in ns.pointers && c.result.Ok? ==>
      ns.pointers[handle].cache < c.state.pointers[handle].cache
    ensures handle in ns.pointers && (ns.model.None? || !llama.hasVocab(ns.model.value)) ==>
      c == Call(ns, Err(FailedToGetVocab))
    ensures handle in ns.pointers && ns.model.Some? && llama.hasVocab(ns.model.value) ==>
      var model := ns.model.value;
      var context := ns.pointers[handle];
      var count := CountTokens(llama, model, context, prompt);
      && (count.Err? ==> c == Call(ns, Err(FailedToCalculateTokens)))
      && (count.Ok? ==>
            var batch := PromptBatch(llama, model, prompt, count.value);
            && (batch.Err? ==> c == Call(ns, Err(FailedToTokenizePrompt)))
            && (batch.Ok? && !llama.samplerChainInit ==> c == Call(ns, Err(FailedToInitSampler)))
            && (batch.Ok? && llama.samplerChainInit ==>
                  var run := GenerateLoop(llama, model, SamplerChain(temperature, topP, minP, penaltyRepeat, penaltyFreq, penaltyPresent),
                                          context.nBatch, context.cache, batch.value, 0, [], [], "");
                  c.state.pointers[handle] == context.(cache := run.cache) && c.result == run.result))
  {
    if handle !in ns.pointers then Call(ns, Err(InvalidHandle))
    else if ns.model.None? || !llama.hasVocab(ns.model.value) then Call(ns, Err(FailedToGetVocab))
    else
      var model := ns.model.value;
      var context := ns.pointers[handle];
      match CountTokens(llama, model, context, prompt)
      case Err(e) => Call(ns, Err(e))
      case Ok(nPrompt) =>
        match PromptBatch(llama, model, prompt, nPrompt)
        case Err(e) => Call(ns, Err(e))
        case Ok(batch) =>
          if !llama.samplerChainInit then Call(ns, Err(FailedToInitSampler))
          else
            var chain := SamplerChain(temperature, topP, minP, penaltyRepeat, penaltyFreq, penaltyPresent);
            var run := GenerateLoop(llama, model, chain, context.nBatch, context.cache, batch, 0, [], [], "");
            Call(ns.(pointers := ns.pointers[handle := context.(cache := run.cache)]), run.result)
  }

  /** `generateNative` succeeds on a registered handle whose model has a vocabulary, when
      the prompt is counted and tokenised, the sampler chain is allocated, every decode
      succeeds and every token has a piece. */
  lemma GenerateNativeSucceeds(ns: NativeState, llama: Engine, handle: int, prompt: string, temperature: F32,
                               topP: F32, minP: F32, penaltyRepeat: F32, penaltyFreq: F32, penaltyPresent: F32)
    requires handle in ns.pointers && ns.model.Some? && llama.hasVocab(ns.model.value) && llama.samplerChainInit
    requires CountTokens(llama, ns.model.value, ns.pointers[handle], prompt).Ok?
    requires PromptBatch(llama, ns.model.value, prompt, CountTokens(llama, ns.model.value, ns.pointers[handle], prompt).value).Ok?
    requires forall cache, batch :: llama.decode(ns.model.value, ns.pointers[handle].nBatch, cache, batch)
    requires forall token :: llama.tokenToPiece(ns.model.value, token).Some?
    ensures GenerateNative(ns, llama, handle, prompt, temperature, topP, minP, penaltyRepeat, penaltyFreq, penaltyPresent).result.Ok?
  {
    var model := ns.model.value;
    var context := ns.pointers[handle];
    var batch := PromptBatch(llama, model, prompt, CountTokens(llama, model, context, prompt).value).value;
    LoopSucceeds(llama, model, SamplerChain(temperature, topP, minP, penaltyRepeat, penaltyFreq, penaltyPresent),
                 context.nBatch, context.cache, batch);
  }

  /** A successful `generateNative` returns the pieces of at most 32 sampled tokens, in
      order, each drawn after the ones before it, none of them an end-of-generation token. */
  lemma GenerateNativeResponse(ns: NativeState, llama: Engine, handle: int, prompt: string, temperature: F32,
                               topP: F32, minP: F32, penaltyRepeat: F32, penaltyFreq: F32, penaltyPresent: F32)
    requires GenerateNative(ns, llama, handle, prompt, temperature, topP, minP, penaltyRepeat, penaltyFreq, penaltyPresent).result.Ok?
    ensures handle in ns.pointers && ns.model.Some?
    ensures var chain := SamplerChain(temperature, topP, minP, penaltyRepeat, penaltyFreq, penaltyPresent);
      var batch := PromptBatch(llama, ns.model.value, prompt, CountTokens(llama, ns.model.value, ns.pointers[handle], prompt).value).value;
      var run := GenerateLoop(llama, ns.model.value, chain, ns.pointers[handle].nBatch, ns.pointers[handle].cache, batch, 0, [], [], "");
      && |run.tokens| <= MaxPieces
      && SampledRun(llama, ns.model.value, chain, ns.pointers[handle].cache + batch, run.tokens, run.pieces, 0)
      && GenerateNative(ns, llama, handle, prompt, temperature, topP, minP, penaltyRepeat, penaltyFreq, penaltyPresent).result.value
         == Concat(run.pieces)
  {
  }

  /** `freeNative`: erase the handle's entry, raising an exception when there is none. */
  function FreeNative(ns: NativeState, handle: int): (c: Call<()>)
    ensures c.result.Ok? <==> handle in ns.pointers
    ensures c.state.pointers.Keys == ns.pointers.Keys - {handle}
    ensures forall h :: h in c.state.pointers ==> c.state.pointers[h] == ns.pointers[h]
    ensures c.result.Err? ==> c == Call(ns, Err(UnableToFree))
  {
    if handle in ns.pointers then Call(ns.(pointers := ns.pointers - {handle}), Ok(()))
    else Call(ns, Err(UnableToFree))
  }

  /** Once a handle is freed, every entry point that takes it fails with "Invalid handle"
      (or, for `freeNative`, "Unable to free native pointer") and changes nothing. */
  lemma FreedHandleIsInvalid(ns: NativeState, llama: Engine, handle: int, prompt: string, messages: seq<ChatMessage>,
                             temperature: F32, topP: F32, minP: F32, penaltyRepeat: F32, penaltyFreq: F32, penaltyPresent: F32)
    ensures var freed := FreeNative(ns, handle).state;
      && CalculateTokensNative(freed, llama, handle, prompt) == Call(freed, Err(InvalidHandle))
      && ApplyTemplateNative(freed, llama, handle, messages) == Call(freed, Err(InvalidHandle))
      && GenerateNative(freed, llama, handle, prompt, temperature, topP, minP, penaltyRepeat, penaltyFreq, penaltyPresent)
         == Call(freed, Err(InvalidHandle))
      && FreeNative(freed, handle) == Call(freed, Err(UnableToFree))
  {
  }

  /** A context created at an address not in use is one new registry entry, and freeing
      it restores the registry exactly. */
  lemma InitThenFree(ns: NativeState, llama: Engine, modelPath: string, contextSize: Int32, batchSize: Int32)
    requires InitNative(ns, llama, modelPath, contextSize, batchSize).result.Ok?
    requires InitNative(ns, llama, modelPath, contextSize, batchSize).result.value !in ns.pointers
    ensures var init := InitNative(ns, llama, modelPath, contextSize, batchSize);
      && |init.state.pointers| == |ns.pointers| + 1
      && FreeNative(init.state, init.result.value).result.Ok?
      && FreeNative(init.state, init.result.value).state.pointers == ns.pointers
  {
    var init := InitNative(ns, llama, modelPath, contextSize, batchSize);
    var h := init.result.value;
    assert init.state.pointers.Keys == ns.pointers.Keys + {h};
    assert |init.state.pointers.Keys| == |ns.pointers.Keys| + 1;
    var freed := FreeNative(init.state, h);
    assert freed.state.pointers.Keys == ns.pointers.Keys;
  }
}
